=== FILE: README.md ===
# Portfolio site front-end core, modelled in Dafny

This project models the client-side logic of a personal portfolio site:

- **`githubService`** reads the owner's repositories through a one-hour `localStorage` cache. It drops forks and excluded names, and sorts by last update, newest first.
- **`pinnedReposService`** reads a static pinned list, falling back to the configured featured list.
- **`featuredProjects`** turns repositories into cards with relative-time labels ("3 weeks ago").
- **`projectGallery`** merges the featured and GitHub lists without duplicate URLs, offers one filter button per language or topic, and pages the grid with "Load More".
- **`carousel`** is a circular carousel with previous/next/go-to and arrow keys. Each card gets a position class relative to the active card.
- **`readmeModal`** requests a repository's README and rewrites its relative links and images against the README's own location.
- **`streamingText`** and **`typeEffect`** are two typewriter effects.
- **`stringHelpers`** and **`projectCard`** are the shared truncation, icon and badge helpers.
- **`projectsScript.js`** is the older page script, with its "infinite" cloned-card carousel.

Every operation is a pure function over immutable datatypes. Browser facilities are values passed in:

- the clock is a millisecond reading;
- `localStorage` is a `Stored` item, plus a flag saying whether writes succeed;
- each `fetch` is a `Response`;
- the outcome of a promise is an `Outcome`;
- `new URL(relative, base)` is a `Resolver` function;
- DOM updates are the state the operation returns: the active filter, the visible count, position classes and panels.

JavaScript values such as `undefined`, an empty string or an invalid `Date` are modelled as explicit cases (`Option`, `When.Invalid`, `Index.NaN`, `Age.NaNYears`), so the falsy-value tests in the code appear as branches.

Points where the code's behaviour is easy to misread, each modelled as the code behaves:

- `getFromCache` calls `localStorage.getItem` outside any `try`, so `fetchAllRepositories` can reject instead of always resolving to a list (`GitHubService.FetchAll`, case `Inaccessible`).
- `config.js` defines neither `github.projectsPerPage` nor `featuredProjects`. Both are parameters of the gallery model, and the page size may be `undefined` (`ProjectGallery.Count`).
  - With the configuration as shipped, the gallery's visible count is `undefined`. `slice(0, undefined)` then shows every project, and `length > undefined` is false, so the Load More button never appears (`ProjectGallery.ShippedGalleryNeverPages`).
  - A Load More press on a non-number would make the count `NaN`, and `slice(0, NaN)` shows nothing. The button is never drawn in that state, but the model keeps the case.
- `featuredProjects.js` imports `normalizeUrl`, which `stringHelpers.js` does not export. Where the import yields `undefined`, the first `createCard` call throws and `loadProjects` shows its error notice. (A native ES module import of a missing name fails before any code runs.) The model takes whether `normalizeUrl` is a function as a parameter (`FeaturedProjects.Load`), so the shipped sources never show a featured card (`FeaturedProjects.ShippedHelpersNeverShowCards`).
- `carousel.loadProjects` calls `githubService.fetchRepositoriesWithLanguages`, which the service does not define. The call throws and the carousel shows its error notice. The model takes that call's settlement as a parameter (`None` for the throw), so both the current behaviour and a working lookup are covered.
- The gallery calls `projectCard.create(repo)` without languages, so every gallery card carries the single "No languages detected" badge (`ProjectGallery.GridCards`).
- `renderFilters` makes a button even for an empty-string topic, but matching drops empty tags, so that button matches no project.
- The README link renderer leaves alone anything starting with `http`, including relative files such as `http-notes.md`.
- `goToIndex` tests the target card's `active` class, not the index.
- The legacy page pads with `3 - GITHUB_REPOS.length` placeholders, counted from the configured names and not from the fetches that worked. If the one configured repository fails to load, the track holds only the two placeholders. In that case the cloned-track lemmas, which assume at least three cards, do not apply.

## Model

| member | source | states |
|---|---|---|
| StringHelpers.TruncateText | src/scripts/utils/stringHelpers.js:14-20 | Absent or empty text becomes "No description available". Text of at most `maxLength` characters is returned unchanged. Longer text becomes the trimmed first `maxLength` characters followed by "...", at most `maxLength + 3` long. |
| StringHelpers.TruncateDefault | src/scripts/config.js:18 | Without an explicit maximum, descriptions are cut at 120 characters. |
| StringHelpers.LanguageIcon | src/scripts/utils/stringHelpers.js:38-40 | A configured language gets its own icon class; any other language, including the empty name, gets the default code icon. |
| StringHelpers.LanguageIconRange | src/scripts/config.js:45-71 | Every icon handed out is one of the configured icon classes: the default icon is itself one of them. |
| ProjectCard.TechBadges | src/scripts/components/projectCard.js:47-61 | No languages, or an empty list, gives one "No languages detected" badge. Otherwise the badges are the first four languages, in order, each with its icon. |
| ProjectCard.BadgeLabelsAreLanguages | src/scripts/components/projectCard.js:54-60 | Reading the badge labels back gives exactly the first four languages, in order. |
| ProjectCard.Create | src/scripts/components/projectCard.js:17-40 | A card shows the repository name, the description truncated at 120, a link to the repository page, the default project icon, and the badges `createTechBadges` makes from the languages it was given: the "No languages detected" badge when there are none, otherwise one badge per language for the first four, in order. |
| GitHubService.GetFromCache | src/scripts/services/githubService.js:20-33 | A stored list is returned iff the item parses, has data and is strictly less than one hour old. A storage read that throws propagates. Anything else reads as no cache. |
| GitHubService.SaveToCache | src/scripts/services/githubService.js:39-49 | A successful write stores the list with the current time. A failing write is swallowed and leaves the previous item. |
| GitHubService.SaveThenGet | src/scripts/services/githubService.js:13-49 | What was saved reads back as exactly that list iff less than an hour has passed, and as no cache afterwards. |
| GitHubService.Select | src/scripts/services/githubService.js:74-75 | The resulting list is a permutation of the repositories that are neither forks nor excluded, ordered newest update first, with ties in input order. |
| GitHubService.ShippedConfigDropsOnlyForks | src/scripts/services/githubService.js:74 | With the shipped empty `excludedRepos`, a repository is shown iff it is not a fork. |
| GitHubService.SortByRecency | src/scripts/services/githubService.js:75 | The sort returns a permutation of its input, ordered by update time, newest first. |
| GitHubService.InsertKeepsTies | src/scripts/services/githubService.js:75 | Each insertion step places the new repository ahead of those updated at the same time, so ties are not reordered. |
| GitHubService.SortIsStable | src/scripts/services/githubService.js:75 | The sort is stable, like `Array.prototype.sort`: for every update time, the repositories with that time come out in their input order. |
| GitHubService.FetchAll | src/scripts/services/githubService.js:55-85 | An unreadable storage rejects before any request. A fresh cache is returned without a request. Otherwise one request is made: failures and non-OK statuses give the empty list and leave the cache alone, and success gives the selected list and stores it, stamped with the clock reading taken when it is written. |
| GitHubService.NoForkOrExcluded | src/scripts/services/githubService.js:57-78 | Whatever path is taken, no fork and no excluded name reaches the caller. A cached list counts here when it was itself written from a selection. |
| GitHubService.CacheRoundTrip | src/scripts/services/githubService.js:55-85 | After a successful fetch is stored, any call less than an hour after the write returns the same list without a request and leaves the cache unchanged. |
| GitHubService.CacheExpires | src/scripts/services/githubService.js:26-28 | An entry an hour old or older is ignored and the network is asked again. |
| PinnedRepos.Fallback | src/scripts/services/pinnedReposService.js:45-47 | The fallback is the configured featured list, or empty when there is none. |
| PinnedRepos.GetPinnedRepos | src/scripts/services/pinnedReposService.js:18-39 | A non-empty `repos` array from the file wins. A network failure, a non-OK status, a missing field or an empty array gives the fallback. The result is empty iff the file gave nothing and the fallback is empty. |
| PinnedRepos.EmptyFileFallsBack | src/scripts/services/pinnedReposService.js:29-34 | A file holding `{ repos: [] }` yields the featured list, not an empty list. |
| FeaturedProjects.FormatDate | src/scripts/components/featuredProjects.js:163-177 | A missing date reads "N/A" and an unparseable one "NaN years ago". Otherwise the whole-day distance falls in exactly one bucket (today, yesterday, 2-6 days, weeks, months, years), and each count lies in the range its bucket's division gives. |
| FeaturedProjects.FormatDateSymmetric | src/scripts/components/featuredProjects.js:166-169 | Dates equally far in the future and in the past get the same label: the distance is absolute. |
| FeaturedProjects.CreateCard | src/scripts/components/featuredProjects.js:90-156 | The card truncates the description at 100, shows a language line only for a non-empty language, defaults stars to 0, and shows the repository name as its title. Topics appear only when present and non-empty, and then exactly the first `min(3, n)` of them. |
| FeaturedProjects.Load | src/scripts/components/featuredProjects.js:51-65 | The empty notice appears iff the pinned list is empty. The error notice appears iff the list is non-empty and `normalizeUrl` is not a function, so the first `createCard` throws into the `catch`. Otherwise there is one card per repository, in order, each exactly the card `createCard` builds for that repository: its title, 100-character description, language and icon, stars, age label, first three topics and link. |
| FeaturedProjects.ShippedHelpersNeverShowCards | src/scripts/components/featuredProjects.js:51-104 | With `normalizeUrl` missing from the helpers, a non-empty pinned list always ends in the error notice and an empty one in the empty notice: no featured card is shown. |
| ProjectGallery.Init | src/scripts/components/projectGallery.js:13-20 | A new gallery has "All" active and nothing to show. The visible count is the configured page size, or `undefined` when none is configured. |
| ProjectGallery.Novel | src/scripts/components/projectGallery.js:56-64 | A GitHub project is kept iff no featured project has the same URL up to ASCII case. |
| ProjectGallery.Merge | src/scripts/components/projectGallery.js:56-66 | The merged list starts with the featured list unchanged, followed by exactly the GitHub projects not featured. |
| ProjectGallery.MergeKeepsOrder | src/scripts/components/projectGallery.js:60-66 | The GitHub part keeps the GitHub order: merging a concatenation appends the novel part of the second half. |
| ProjectGallery.MergeDropsCaseInsensitiveDuplicates | src/scripts/components/projectGallery.js:57-63 | A GitHub project whose URL equals a featured one's up to case is not in the merged tail. |
| ProjectGallery.Load | src/scripts/components/projectGallery.js:51-87 | A resolved fetch shows the merged list, with the empty notice iff both lists are empty. A rejection shows the featured list if it is non-empty and the error notice otherwise. Filter and paging are untouched. |
| ProjectGallery.FilterButtons | src/scripts/components/projectGallery.js:92-111 | The buttons are "All" plus every language and topic of the loaded projects, each exactly once, in ascending order. |
| ProjectGallery.AtMostOneActiveButton | src/scripts/components/projectGallery.js:103-108 | At most one button carries the active filter's text, so at most one is marked active. |
| ProjectGallery.ActiveFilterHasButton | src/scripts/components/projectGallery.js:92-111 | "All", and every language or topic of a loaded project, has a button that can be marked active. |
| ProjectGallery.Filtered | src/scripts/components/projectGallery.js:157-162 | "All" keeps every project. Any other filter keeps exactly the projects whose non-empty language or topics contain it. |
| ProjectGallery.FilteredKeepsOrder | src/scripts/components/projectGallery.js:157-162 | Filtering preserves project order: filtering a concatenation concatenates the filtered halves. |
| ProjectGallery.Render | src/scripts/components/projectGallery.js:148-185 | The no-results message appears iff nothing matches. Otherwise, with a numeric count, the first `visibleCount` matches are shown and Load More appears iff more matches remain. An `undefined` count shows every match without the button, and `NaN` shows none. |
| ProjectGallery.UnsetPageSizeShowsAll | src/scripts/components/projectGallery.js:118-184 | With the count `undefined`, the grid shows every match and no Load More button, and a filter click leaves the count `undefined`. |
| ProjectGallery.ShippedGalleryNeverPages | src/scripts/components/projectGallery.js:118-184 | With `projectsPerPage` unset, after loading any projects and any run of filter clicks, the grid shows every match and never the Load More button. |
| ProjectGallery.GridCards | src/scripts/components/projectGallery.js:172-179 | One card per shown project, in order and linked to it. Each card has only the "No languages detected" badge, because no languages are passed. |
| ProjectGallery.Step | src/scripts/components/projectGallery.js:118-201 | A filter click sets the active filter. Load More adds one page to a numeric count; if the count or the page size is not a number, the count becomes `NaN`. Neither changes the project list. |
| ProjectGallery.ClickActiveIsNoOp | src/scripts/components/projectGallery.js:119 | Clicking the filter that is already active leaves the gallery unchanged. |
| ProjectGallery.SwitchResetsPaging | src/scripts/components/projectGallery.js:120-122 | Switching to a different filter resets the visible count to the configured page size, which may be `undefined`. |
| ProjectGallery.ShrinksOnlyOnSwitch | src/scripts/components/projectGallery.js:118-201 | The number of matches shown can only fall through a switch to a different filter, or through a Load More press that meets a non-number and makes the count `NaN`. |
| ProjectGallery.LoadMoreTimesGrows | src/scripts/components/projectGallery.js:198-201 | `k` presses of Load More widen a numeric window by `k` pages and change nothing else. With a non-number on either side, any press leaves `NaN`. |
| ProjectGallery.LoadMoreReachesEnd | src/scripts/components/projectGallery.js:170-184 | With a positive numeric page size and count, enough presses show every match and remove the button. |
| Carousel.Init | src/scripts/components/carousel.js:12-17 | A new carousel has index 0, no cards, and is consistently styled. |
| Carousel.Offset | src/scripts/components/carousel.js:157 | A card's offset from the active card is in `[0, n)`, and stepping right that many places from the active card reaches it. |
| Carousel.Layout | src/scripts/components/carousel.js:149-172 | Every card gets a position class, and exactly the current card is active. |
| Carousel.Update | src/scripts/components/carousel.js:143-173 | With no cards nothing changes. Otherwise the index is kept and the classes become those the index calls for. |
| Carousel.NoneHiddenUpToFive | src/scripts/components/carousel.js:159-171 | With at most five cards no card is hidden. |
| Carousel.ThreeCardsPrecedence | src/scripts/components/carousel.js:159-167 | With three cards the card two steps right is `right-2`, not `left-1`: the right-hand tests come first. |
| Carousel.FiveVisibleClasses | src/scripts/components/carousel.js:159-171 | From five cards on, each of `right-1`, `right-2`, `left-1` and `left-2` is worn by exactly the card at that circular distance. |
| Carousel.Next | src/scripts/components/carousel.js:124-127 | One step right, modulo the card count, then restyled. With no cards the index becomes NaN. |
| Carousel.Previous | src/scripts/components/carousel.js:116-119 | One step left, wrapping from the first card to the last, then restyled. With no cards the index becomes NaN. |
| Carousel.NextPreviousInverse | src/scripts/components/carousel.js:116-127 | On a styled carousel, `previous` undoes `next` and `next` undoes `previous`. |
| Carousel.NextTimesIndex | src/scripts/components/carousel.js:124-127 | Up to a full turn, `k` presses of next move the index `k` places around the circle. |
| Carousel.NextFullCircle | src/scripts/components/carousel.js:124-127 | `n` presses of next on `n` cards bring the index back to where it started. |
| Carousel.GoToIndex | src/scripts/components/carousel.js:133-138 | Only an existing card that is not marked active becomes current. Any other request leaves the carousel unchanged. |
| Carousel.GoToChangesIffOther | src/scripts/components/carousel.js:133-138 | On a styled carousel, going to a card changes the state iff it is not the current card. |
| Carousel.HandleKeydown | src/scripts/components/carousel.js:105-111 | ArrowLeft steps back, ArrowRight steps forward, and every other key is ignored. |
| Carousel.ArrowKeysCancel | src/scripts/components/carousel.js:105-127 | ArrowRight followed by ArrowLeft, or the reverse, returns a styled carousel to its state. |
| Carousel.Render | src/scripts/components/carousel.js:64-78 | One fresh, unstyled card per project. The index returns to 0 when there is at least one card, and is kept when there is none. |
| Carousel.RenderForgetsPreviousState | src/scripts/components/carousel.js:64-78 | A non-empty render does not depend on the previous index or classes, and after the update the first card is active. |
| Carousel.Load | src/scripts/components/carousel.js:39-58 | A rejected fetch or a failing language lookup shows the error notice, and an empty list the empty notice. A non-empty list with a successful lookup shows the carousel, which is styled, has one card per project, and starts with the first card active. |
| Carousel.LoadIsRepeatable | src/scripts/components/carousel.js:39-78 | Loading the same projects gives the same screen whatever state the carousel was in. With two or more cards the second card is `right-1`. |
| ReadmeModal.RepoCoordinates | src/scripts/components/readmeModal.js:65-67 | Owner and repository are the last two `/`-free segments. The owner is undefined iff the URL has no `/`. |
| ReadmeModal.CoordinatesOfRepoUrl | src/scripts/components/readmeModal.js:65-67 | A URL ending in `/owner/repo` names exactly that owner and repository. |
| ReadmeModal.ApiUrl | src/scripts/components/readmeModal.js:69 | The README is always requested from the GitHub API's `repos/` endpoint, and the request ends with the repository segment followed by `/readme`. |
| ReadmeModal.ApiUrlOfRepoPage | src/scripts/components/readmeModal.js:64-69 | For a repository page `https://github.com/owner/repo`, the request is exactly `https://api.github.com/repos/owner/repo/readme`. |
| ReadmeModal.DirPrefix | src/scripts/components/readmeModal.js:79-80 | The base is the longest prefix of the URL ending in `/`, or empty when the URL has no `/`. |
| ReadmeModal.DirPrefixOf | src/scripts/components/readmeModal.js:79-80 | A URL made of a directory ending in `/` and a file name has that directory as its base. |
| ReadmeModal.DirPrefixAndLastSegment | src/scripts/components/readmeModal.js:65-80 | A URL is its base followed by its last segment. |
| ReadmeModal.StripDotSlash | src/scripts/components/readmeModal.js:96 | One leading `./` is removed, and only one. |
| ReadmeModal.RewriteLink | src/scripts/components/readmeModal.js:93-105 | Non-empty links that are not absolute, fragment or mail links are resolved against the blob base, keeping the original when resolution throws. Every link except a fragment opens in a new tab. |
| ReadmeModal.FragmentLinksStay | src/scripts/components/readmeModal.js:95-104 | Fragment links are kept and open in the same tab. |
| ReadmeModal.AbsoluteLinksOpenElsewhere | src/scripts/components/readmeModal.js:95-104 | Absolute and mail links are kept and open in a new tab. |
| ReadmeModal.RelativeLinkExample | src/scripts/components/readmeModal.js:95-104 | `./docs/x.md` in a README on `main` links to the blob view of `docs/x.md` in a new tab. |
| ReadmeModal.RewriteImage | src/scripts/components/readmeModal.js:107-118 | Non-empty image sources that are not absolute or data URLs are resolved against the raw base, keeping the original when resolution throws. |
| ReadmeModal.AbsoluteAndDataImagesKept | src/scripts/components/readmeModal.js:107-118 | Absolute and `data:` image sources are left exactly as written. |
| ReadmeModal.RelativeImageNextToReadme | src/scripts/components/readmeModal.js:78-118 | For a README downloaded from `dir/README.md`, `./img/logo.png` points at `dir/img/logo.png`, given a resolver that appends plain relative paths. |
| ReadmeModal.Init | src/scripts/components/readmeModal.js:10-14 | A new modal is closed, with nothing loaded. |
| ReadmeModal.Open | src/scripts/components/readmeModal.js:51-60 | Before the request, the modal is marked open and shows the loading spinner. |
| ReadmeModal.Settle | src/scripts/components/readmeModal.js:62-139 | The settled request replaces only the content: the decoded README with bases taken from its two URLs, or the error panel linking to the repository on any failure. The open flag is left as it is. |
| ReadmeModal.Close | src/scripts/components/readmeModal.js:168-173 | Closing clears only the open flag and keeps the panel. |
| ReadmeModal.HandleKeydown | src/scripts/components/readmeModal.js:46-48 | Escape closes an open modal. Any other key, or a closed modal, changes nothing. |
| ReadmeModal.OpenThenEscapeCloses | src/scripts/components/readmeModal.js:46-139 | An uninterrupted open ends open, showing the README or the error panel rather than the spinner, and Escape then closes it. |
| ReadmeModal.CloseWhileLoadingStaysClosed | src/scripts/components/readmeModal.js:46-139 | Escape while the README is loading closes the modal. The late response still fills in the content, but the modal stays closed. |
| StreamingText.Init | src/scripts/components/streamingText.js:10-16 | The writer starts typing the first text from nothing, a state the invariant admits for any non-empty texts. |
| StreamingText.Type | src/scripts/components/streamingText.js:43-74 | The shown text is the prefix up to the new index. The index moves by one, typing switches to deleting at the full length after a 2000 ms pause, and deleting to 0 moves to the next text after 500 ms. |
| StreamingText.TypePreservesInv | src/scripts/components/streamingText.js:43-74 | With non-empty texts the character index stays within the current text, and the shown length equals the index. |
| StreamingText.FullCycle | src/scripts/components/streamingText.js:43-74 | A text of length `L` is typed and deleted in `2L` steps, ending at the start of the next text, cyclically. |
| StreamingText.ConfiguredTextsNonEmpty | src/scripts/config.js:25-36 | The configured texts are non-empty, so the lemmas above apply to the site. |
| TypeEffect.Init | src/scripts/typeEffect.js:55-57 | The effect starts typing the first phrase from nothing, within the invariant. |
| TypeEffect.Step | src/scripts/typeEffect.js:2-38 | The shown text is the prefix up to the current index. Typing advances at 100 ms and deleting retreats at 40 ms. A full phrase pauses 1500 ms before deleting, and an emptied phrase moves to the next of the five phrases. |
| TypeEffect.StepPreservesInv | src/scripts/typeEffect.js:2-38 | The character index never leaves `[0, length of the current phrase]`, so the shown text is a genuine prefix. |
| TypeEffect.FullCycle | src/scripts/typeEffect.js:2-50 | A phrase of length `L` takes `2L + 2` steps to reach the start of the next phrase, cyclically. |
| LegacyProjects.Description | src/scripts/projectsScript.js:67-71 | Absent or empty descriptions read "No description available.". Longer than 200 characters becomes the trimmed first 200 followed by "...". |
| LegacyProjects.LangText | src/scripts/projectsScript.js:57-59 | The text always starts with "Tech: ". It is "Unknown" without languages, and otherwise the first three names joined by commas. |
| LegacyProjects.LangTextUsesFirstThree | src/scripts/projectsScript.js:58 | Only the first three language names affect the text. |
| LegacyProjects.Placeholders | src/scripts/projectsScript.js:81-82 | The configured names plus the placeholders make three, and there are no placeholders from three names on. |
| LegacyProjects.RepoCards | src/scripts/projectsScript.js:53-78 | The cards are exactly the fetched repositories in configured order, one each. Each shows the name, the description rule, the page link and the language text. Names whose repository could not be fetched are skipped. |
| LegacyProjects.FailedFetchIsSkipped | src/scripts/projectsScript.js:54-55 | A name whose fetch failed leaves no trace: the cards are those of the names before it followed by those after it. |
| LegacyProjects.Cards | src/scripts/projectsScript.js:53-94 | With the one configured name, the track is the repository cards followed by two placeholders. |
| LegacyProjects.TrackAsWritten | src/scripts/projectsScript.js:128-132 | As the code builds it, the track's leading clones show the last cards in reverse order (position `i` shows card `n - 1 - i`), followed by the cards and then the first three in order. |
| LegacyProjects.Track | src/scripts/projectsScript.js:128-132 | The corrected track is the last three cards in order, the cards, then the first three. Position `i` shows card `(i - 3) mod n`. |
| LegacyProjects.StartShowsFirstCard | src/scripts/projectsScript.js:125 | The starting index shows the first real card, and the last real card sits just before the trailing clones. |
| LegacyProjects.Move | src/scripts/projectsScript.js:149-174 | A click, or Enter or Space on a button, moves the index by one. Other keys do nothing. |
| LegacyProjects.Settle | src/scripts/projectsScript.js:177-186 | Past the last real card the index jumps to the first, before the first it jumps to the last, and otherwise it stays. |
| LegacyProjects.SettleLandsOnRealCard | src/scripts/projectsScript.js:177-186 | One step off the real cards, the correction lands on a real card again. |
| LegacyProjects.SettleIsSeamless | src/scripts/projectsScript.js:128-186 | On the corrected track the jump is invisible: the three cards in the window are the same before and after. |
| LegacyProjects.ReversedClonesJump | src/scripts/projectsScript.js:131 | As written, the leading clones are reversed. Stepping back from the first of four cards shows the second card, and the correction then jumps to the fourth. |

## Left out

- DOM construction, HTML templates, CSS classes other than the carousel's position classes, skeleton loaders, animations, focus handling and `aria` attributes. Each operation's effect is the state it returns.
- Timers and event-loop scheduling. Delays are returned as numbers, and one call of a typewriter is one step.
- `fetch`, `localStorage` and JSON parsing. They are values passed in, and a JSON round trip through storage is taken to preserve the list.
- Base64 and UTF-8 decoding of the README (`atob`, `TextDecoder`): the decoded text, or its failure, is part of the response.
- Markdown rendering (`marked`), syntax highlighting, the copy buttons, and `new URL` resolution. Resolution is a parameter function.
- `sanitizeHTML`, the homepage link a featured card would show when `normalizeUrl` exists, `heroPinned`, the service worker (`sw.js`), the logger and storage wrappers, and the TSX layout components. They sit outside the modelled logic.
- `fetchRepositoriesWithLanguages`: the service does not define it. The carousel model takes its settlement as a parameter.
- The order of `Object.keys` for language maps is whatever the response gives. The model takes the keys as a sequence.
- GitHubService.SortByRecency: a missing or unparseable date sorts as the epoch here. The code's comparator returns NaN for it, which leaves the order to the engine. Between valid dates the order, ties included, is the code's.
- GitHubService.FetchAll: the write-time clock reading `savedAt` is not tied to `now`. The code reads `Date.now()` again after two `await`s, so it is normally a little later.
- StringHelpers.TruncateText: lengths count Unicode scalar values. JavaScript counts UTF-16 code units, so text with characters outside the Basic Multilingual Plane can be cut at a different place.
- ProjectGallery.Novel: lower-casing folds ASCII letters only. `toLowerCase` also folds other scripts, so URLs differing only in non-ASCII case are treated as distinct here.
- ProjectGallery.FilterButtons: ascending order is code-point order. JavaScript's default sort compares UTF-16 code units, which differ only for characters outside the Basic Multilingual Plane.
- StringHelpers.LanguageIcon: names of `Object.prototype` members (such as `constructor`) would return the inherited member in JavaScript. The model treats them as unknown languages.
- FeaturedProjects.FormatDate: the label is a datatype rather than its English text.
- LegacyProjects.SettleIsSeamless: stated for three or more cards. With fewer, `slice(-3)` clones fewer than three cards, and the code's fixed offset of three no longer lines up.
- ReadmeModal.Settle: the README's `html_url` and `download_url` are taken to be strings. A missing one makes `substring` throw in the code, which shows the error panel.
- LegacyProjects.Cards: stated for the single configured repository name.
- The legacy track's pixel offset (`translateX(-index * 310px)`) is not modelled. The index it is computed from is.
- Carousel.Load: the loading state shown while the requests are in flight is not a screen of the model. Only the settled outcome is.
- Carousel.Render: the cards are the rendered projects. The code re-queries `.project-card` across the whole document, which would also pick up cards another component rendered on the same page.

## Findings

| source | as written | input that shows it | evidently intended | confidence | as-written member | corrected member |
|---|---|---|---|---|---|---|
| src/scripts/projectsScript.js:131 | `clonesStart.forEach(c => TRACK.insertBefore(c, TRACK.firstChild))` inserts each clone before the previous one, so the leading clones are the last three cards in reverse order | four cards `[0, 1, 2, 3]`: stepping back from the first card shows card 1, then the `transitionend` correction jumps to card 3 | the leading clones in original order (last three cards, then the real cards), so the correction lands on the card already shown | not executed | LegacyProjects.ReversedClonesJump | LegacyProjects.SettleIsSeamless |

=== FILE: carousel.dfy ===
/**
 * `carousel`: a circular active index over the rendered cards, previous/next/goTo
 * navigation, arrow keys, and the position class each card receives.
 */
module Carousel {
  import opened Wrappers
  import GitHubService
  import Repos

  /** `currentIndex`; `(i + 1) % 0` is NaN in JavaScript, which is what `next` yields with no cards. */
  datatype Index = At(i: int) | NaN

  /** The position class a card carries; `Unplaced` is a card no update has styled yet. */
  datatype Position = Unplaced | Active | Right1 | Right2 | Left1 | Left2 | Hidden

  /** The controller: its index and the class of each card, one entry per card. */
  datatype Carousel = Carousel(current: Index, cards: seq<Position>)

  /** The constructor's state: index 0, no cards. */
  function Init(): (c: Carousel)
    ensures Styled(c) && c.cards == [] && c.current == At(0)
  {
    Carousel(At(0), [])
  }

  /** The index names a card whenever there is one. */
  predicate Valid(c: Carousel) {
    |c.cards| > 0 ==> c.current.At? && 0 <= c.current.i < |c.cards|
  }

  /** The classes on the cards are the ones the current index calls for. */
  predicate Styled(c: Carousel) {
    Valid(c) && (|c.cards| > 0 ==> c.cards == Layout(|c.cards|, c.current.i))
  }

  // ----- position classes ----------------------------------------------------

  /** `(index - currentIndex + n) % n`; the left operand is positive, so `%` agrees with JavaScript's. */
  function Offset(index: int, current: int, n: nat): (r: int)
    requires n > 0 && 0 <= index < n && 0 <= current < n
    ensures 0 <= r < n
    ensures (current + r) % n == index
  {
    var x := index - current + n;
    ModSmall(x, n);
    ModSmall(current + x % n, n);
    x % n
  }

  /** `%` on an operand in [0, 2n) subtracts `n` at most once. */
  lemma ModSmall(x: int, n: nat)
    requires n > 0 && 0 <= x < 2 * n
    ensures x % n == if x < n then x else x - n
  {
  }

  /** The class for a card at `position` steps to the right of the active one, checked in the code's order. */
  function ClassAt(position: int, n: nat): Position {
    if position == 0 then Active
    else if position == 1 then Right1
    else if position == 2 then Right2
    else if position == n - 1 then Left1
    else if position == n - 2 then Left2
    else Hidden
  }

  /** The classes `updateCarousel` assigns to cards `0 .. n-1`. */
  function Layout(n: nat, current: int): (r: seq<Position>)
    requires 0 <= current < n
    ensures |r| == n
    ensures forall k :: 0 <= k < n ==> r[k] == ClassAt(Offset(k, current, n), n)
    ensures forall k :: 0 <= k < n ==> r[k] != Unplaced
    ensures forall k :: 0 <= k < n ==> (r[k] == Active <==> k == current)
  {
    var r := seq(n, k requires 0 <= k < n => ClassAt(Offset(k, current, n), n));
    forall k | 0 <= k < n ensures r[k] == Active <==> k == current {
      OffsetZero(k, current, n);
    }
    r
  }

  lemma OffsetZero(index: int, current: int, n: nat)
    requires n > 0 && 0 <= index < n && 0 <= current < n
    ensures Offset(index, current, n) == 0 <==> index == current
  {
    ModSmall(index - current + n, n);
  }

  /** `updateCarousel()`: with no cards it returns at once. */
  function Update(c: Carousel): (r: Carousel)
    requires Valid(c)
    ensures |c.cards| == 0 ==> r == c
    ensures Styled(r) && r.current == c.current && |r.cards| == |c.cards|
  {
    if |c.cards| == 0 then c else c.(cards := Layout(|c.cards|, c.current.i))
  }

  /** Up to five cards nobody is hidden: every card is active or one or two steps to a side. */
  lemma NoneHiddenUpToFive(n: nat, current: int, k: int)
    requires 0 <= current < n <= 5 && 0 <= k < n
    ensures Layout(n, current)[k] != Hidden
  {
  }

  /** With three cards the card two steps right is `right-2`, not `left-1`: the right-hand tests come first. */
  lemma ThreeCardsPrecedence()
    ensures Layout(3, 0) == [Active, Right1, Right2]
  {
  }

  /** From five cards on, each of the five visible classes is worn by exactly the card at its offset. */
  lemma FiveVisibleClasses(n: nat, current: int, k: int)
    requires 5 <= n && 0 <= current < n && 0 <= k < n
    ensures Layout(n, current)[k] == Right1 <==> k == (current + 1) % n
    ensures Layout(n, current)[k] == Right2 <==> k == (current + 2) % n
    ensures Layout(n, current)[k] == Left1 <==> k == (current + n - 1) % n
    ensures Layout(n, current)[k] == Left2 <==> k == (current + n - 2) % n
  {
    var p := Offset(k, current, n);
    assert (current + p) % n == k;
    OffsetUnique(current, n, p, 1);
    OffsetUnique(current, n, p, 2);
    OffsetUnique(current, n, p, n - 1);
    OffsetUnique(current, n, p, n - 2);
  }

  lemma OffsetUnique(current: int, n: nat, p: int, q: int)
    requires n > 0 && 0 <= current < n && 0 <= p < n && 0 <= q < n
    ensures (current + p) % n == (current + q) % n <==> p == q
  {
    ModSmall(current + p, n);
    ModSmall(current + q, n);
  }

  // ----- navigation ----------------------------------------------------------

  /** `next()`: one step right, modulo the card count, then an update. */
  function Next(c: Carousel): (r: Carousel)
    requires Valid(c)
    ensures Styled(r) && |r.cards| == |c.cards|
    ensures |c.cards| > 0 ==> r.current == At((c.current.i + 1) % |c.cards|)
    ensures |c.cards| == 0 ==> r == c.(current := NaN)
  {
    var n := |c.cards|;
    if n == 0 then c.(current := NaN)
    else Update(c.(current := At((c.current.i + 1) % n)))
  }

  /** `previous()`: one step left, `(i - 1 + n) % n`, then an update. */
  function Previous(c: Carousel): (r: Carousel)
    requires Valid(c)
    ensures Styled(r) && |r.cards| == |c.cards|
    ensures |c.cards| > 0 ==> r.current == At((c.current.i - 1 + |c.cards|) % |c.cards|)
    ensures |c.cards| == 0 ==> r == c.(current := NaN)
  {
    var n := |c.cards|;
    if n == 0 then c.(current := NaN)
    else Update(c.(current := At((c.current.i - 1 + n) % n)))
  }

  /** `previous` undoes `next` and `next` undoes `previous`. */
  lemma NextPreviousInverse(c: Carousel)
    requires Styled(c) && |c.cards| > 0
    ensures Previous(Next(c)) == c
    ensures Next(Previous(c)) == c
  {
    var n := |c.cards|;
    var i := c.current.i;
    ModSmall(i + 1, n);
    ModSmall((i + 1) % n - 1 + n, n);
    ModSmall(i - 1 + n, n);
    ModSmall((i - 1 + n) % n + 1, n);
  }

  function NextTimes(c: Carousel, k: nat): (r: Carousel)
    requires Valid(c)
    ensures Valid(r)
    decreases k
  {
    if k == 0 then c else NextTimes(Next(c), k - 1)
  }

  /** Up to a full turn, `k` steps right move the index `k` places around the circle. */
  lemma {:induction false} NextTimesIndex(c: Carousel, k: nat)
    requires Valid(c) && |c.cards| > 0 && k <= |c.cards|
    ensures NextTimes(c, k).current == At((c.current.i + k) % |c.cards|)
    ensures |NextTimes(c, k).cards| == |c.cards|
    decreases k
  {
    var n := |c.cards|;
    var i := c.current.i;
    if k == 0 {
      ModSmall(i, n);
    } else {
      ModSmall(i + 1, n);
      NextTimesIndex(Next(c), k - 1);
      var j := (i + 1) % n;
      ModSmall(j + (k - 1), n);
      ModSmall(i + k, n);
    }
  }

  /** `n` presses of next on `n` cards bring the index back to where it started. */
  lemma {:induction false} NextFullCircle(c: Carousel)
    requires Valid(c) && |c.cards| > 0
    ensures NextTimes(c, |c.cards|).current == c.current
  {
    var n := |c.cards|;
    var i := c.current.i;
    NextTimesIndex(c, n);
    assert NextTimes(c, n).current == At((i + n) % n);
    ModSmall(i + n, n);
    assert (i + n) % n == i;
  }

  /** `goToIndex(index)`: only an existing card that is not marked active becomes current. */
  function GoToIndex(c: Carousel, index: int): (r: Carousel)
    requires Valid(c)
    ensures Valid(r) && |r.cards| == |c.cards|
    ensures (0 <= index < |c.cards| && c.cards[index] != Active) ==> r == Update(c.(current := At(index)))
    ensures !(0 <= index < |c.cards| && c.cards[index] != Active) ==> r == c
  {
    if 0 <= index < |c.cards| && c.cards[index] != Active then Update(c.(current := At(index))) else c
  }

  /** On a styled carousel, going to a card changes the state exactly when it is not the current one. */
  lemma GoToChangesIffOther(c: Carousel, index: int)
    requires Styled(c) && 0 <= index < |c.cards|
    ensures GoToIndex(c, index) == c <==> index == c.current.i
  {
    if index != c.current.i {
      assert GoToIndex(c, index).current == At(index);
    }
  }

  /** `handleKeydown(event)`: the arrow keys step, every other key is ignored. */
  function HandleKeydown(c: Carousel, key: string): (r: Carousel)
    requires Valid(c)
    ensures key == "ArrowLeft" ==> r == Previous(c)
    ensures key == "ArrowRight" ==> r == Next(c)
    ensures key != "ArrowLeft" && key != "ArrowRight" ==> r == c
  {
    if key == "ArrowLeft" then Previous(c)
    else if key == "ArrowRight" then Next(c)
    else c
  }

  /** ArrowRight then ArrowLeft, or the reverse, leaves a styled carousel as it was. */
  lemma ArrowKeysCancel(c: Carousel)
    requires Styled(c) && |c.cards| > 0
    ensures HandleKeydown(HandleKeydown(c, "ArrowRight"), "ArrowLeft") == c
    ensures HandleKeydown(HandleKeydown(c, "ArrowLeft"), "ArrowRight") == c
  {
    NextPreviousInverse(c);
  }

  // ----- loading -------------------------------------------------------------

  /** `renderProjects(projects)`: fresh, unstyled cards; the index returns to 0 when there is at least one. */
  function Render(c: Carousel, count: nat): (r: Carousel)
    ensures |r.cards| == count && Valid(r)
    ensures forall k :: 0 <= k < count ==> r.cards[k] == Unplaced
    ensures count > 0 ==> r.current == At(0)
    ensures count == 0 ==> r.current == c.current
  {
    Carousel(if count > 0 then At(0) else c.current, seq(count, _ => Unplaced))
  }

  /** A non-empty render starts from scratch: the previous index and classes leave no trace. */
  lemma RenderForgetsPreviousState(c1: Carousel, c2: Carousel, count: nat)
    requires count > 0
    ensures Render(c1, count) == Render(c2, count)
    ensures Update(Render(c1, count)).cards[0] == Active
  {
    assert Render(c1, count).current == At(0) == Render(c2, count).current;
  }

  datatype Screen = EmptyNotice | ErrorNotice | Shown(carousel: Carousel)

  /**
   * `loadProjects()` given how `fetchAllRepositories` settled and how the language
   * lookup for the repositories settled (`None` when it throws).
   */
  function Load(c: Carousel, fetched: GitHubService.Outcome, withLanguages: Option<seq<(Repos.Repo, seq<string>)>>): (r: Screen)
    ensures fetched.Rejected? ==> r == ErrorNotice
    ensures fetched.Resolved? && fetched.repos == [] ==> r == EmptyNotice
    ensures fetched.Resolved? && fetched.repos != [] && withLanguages.None? ==> r == ErrorNotice
    ensures fetched.Resolved? && fetched.repos != [] && withLanguages.Some? ==> r.Shown?
    ensures r.Shown? ==> Styled(r.carousel) && |r.carousel.cards| == |withLanguages.value|
    ensures r.Shown? && |withLanguages.value| > 0 ==> r.carousel.current == At(0) && r.carousel.cards[0] == Active
  {
    match fetched
    case Rejected => ErrorNotice
    case Resolved(repos) =>
      if |repos| == 0 then EmptyNotice
      else if withLanguages.None? then ErrorNotice
      else Shown(Update(Render(c, |withLanguages.value|)))
  }

  /**
   * Loading the same repositories twice shows the same carousel, whatever state the
   * first load left behind, and a shown carousel of two or more cards has the
   * second card on `right-1`.
   */
  lemma LoadIsRepeatable(c1: Carousel, c2: Carousel, fetched: GitHubService.Outcome, projects: seq<(Repos.Repo, seq<string>)>)
    requires |projects| > 0
    ensures Load(c1, fetched, Some(projects)) == Load(c2, fetched, Some(projects))
    ensures Load(c1, fetched, Some(projects)).Shown? && |projects| >= 2 ==>
      Load(c1, fetched, Some(projects)).carousel.cards[1] == Right1
  {
    RenderForgetsPreviousState(c1, c2, |projects|);
    if Load(c1, fetched, Some(projects)).Shown? && |projects| >= 2 {
      var n := |projects|;
      assert Offset(1, 0, n) == 1 by { ModSmall(1 + n, n); }
    }
  }
}

=== FILE: config.dfy ===
/** The constants of `config.js` the modelled components read. */
module Config {

  const MaxLanguagesPerProject := 4
  const ProjectDescriptionMaxLength := 120

  const DefaultLanguageIcon := "fas fa-code"
  const DefaultProjectIcon := "fas fa-folder-open"

  /** `config.github.excludedRepos`. */
  const ExcludedRepos: seq<string> := []

  /** `config.languageIcons`. */
  const LanguageIcons: map<string, string> := map[
    "JavaScript" := "fab fa-js",
    "TypeScript" := "fab fa-js",
    "Python" := "fab fa-python",
    "Java" := "fab fa-java",
    "C#" := "fas fa-hashtag",
    "C++" := "fas fa-code",
    "C" := "fas fa-code",
    "Ruby" := "fas fa-gem",
    "Go" := "fas fa-code",
    "Rust" := "fas fa-cog",
    "PHP" := "fab fa-php",
    "Swift" := "fab fa-swift",
    "Kotlin" := "fas fa-mobile-alt",
    "HTML" := "fab fa-html5",
    "CSS" := "fab fa-css3-alt",
    "Shell" := "fas fa-terminal",
    "Dockerfile" := "fab fa-docker",
    "Vue" := "fab fa-vuejs",
    "React" := "fab fa-react"
  ]

  /** `config.streamingText`. */
  const StreamingTexts: seq<string> := [
    "Building scalable applications with C#, .NET, and modern technologies.",
    "Passionate about clean code and elegant solutions.",
    "Creating AI-powered applications that make a difference.",
    "Solving complex problems with simple, efficient code."
  ]
  const TypingSpeed := 50
  const DeletingSpeed := 30
  const PauseBeforeDelete := 2000
  const PauseBeforeType := 500
}

=== FILE: featured_projects.dfy ===
/** `featuredProjects`: relative-time labels and the pinned-repository cards. */
module FeaturedProjects {
  import opened Wrappers
  import opened Seqs
  import opened Repos
  import opened StringHelpers
  import Config

  const DayMs := 86400000
  const MaxTopics := 3
  const FeaturedDescriptionLength := 100

  /** The label `formatDate` builds; `NaNYears` is the "NaN years ago" an unparseable date produces. */
  datatype Age =
    | NotAvailable
    | Today
    | Yesterday
    | DaysAgo(days: int)
    | WeeksAgo(weeks: int)
    | MonthsAgo(months: int)
    | YearsAgo(years: int)
    | NaNYears

  function Abs(x: int): nat { if x < 0 then -x else x }

  /** `Math.floor(Math.abs(now - date) / 86400000)`. */
  function DiffDays(date: int, now: int): nat {
    Abs(now - date) / DayMs
  }

  /** `formatDate(dateString)` relative to the clock reading `now`. */
  function FormatDate(date: When, now: int): (r: Age)
    ensures date.Unset? <==> r.NotAvailable?
    ensures date.Invalid? <==> r.NaNYears?
    ensures date.At? ==> var d := DiffDays(date.ms, now);
      && (d == 0 <==> r.Today?)
      && (d == 1 <==> r.Yesterday?)
      && (2 <= d < 7 <==> r.DaysAgo?)
      && (7 <= d < 30 <==> r.WeeksAgo?)
      && (30 <= d < 365 <==> r.MonthsAgo?)
      && (365 <= d <==> r.YearsAgo?)
      && (r.DaysAgo? ==> r.days == d)
      && (r.WeeksAgo? ==> 1 <= r.weeks <= 4 && 7 * r.weeks <= d < 7 * r.weeks + 7)
      && (r.MonthsAgo? ==> 1 <= r.months <= 12 && 30 * r.months <= d < 30 * r.months + 30)
      && (r.YearsAgo? ==> r.years >= 1 && 365 * r.years <= d < 365 * r.years + 365)
  {
    match date
    case Unset => NotAvailable
    case Invalid => NaNYears
    case At(ms) =>
      var d := DiffDays(ms, now);
      if d == 0 then Today
      else if d == 1 then Yesterday
      else if d < 7 then DaysAgo(d)
      else if d < 30 then WeeksAgo(d / 7)
      else if d < 365 then MonthsAgo(d / 30)
      else YearsAgo(d / 365)
  }

  /** A date `x` milliseconds in the future gets the same label as one `x` milliseconds in the past. */
  lemma FormatDateSymmetric(now: int, x: int)
    ensures FormatDate(At(now - x), now) == FormatDate(At(now + x), now)
  {
    assert DiffDays(now - x, now) == DiffDays(now + x, now);
  }

  datatype FeaturedCard = FeaturedCard(
    title: string,
    description: string,
    language: Option<string>,
    languageIcon: string,
    stars: int,
    updated: Age,
    topics: Option<seq<string>>,
    link: string
  )

  /**
   * `createCard(repo)`: description cut at 100, the language line only for a
   * non-empty language, stars defaulting to 0, at most three topics and no topic
   * block for absent or empty topics.
   */
  function CreateCard(repo: Repo, now: int): (c: FeaturedCard)
    ensures c.title == repo.name
    ensures c.description == TruncateText(repo.description, FeaturedDescriptionLength)
    ensures c.language.Some? <==> Truthy(repo.language)
    ensures c.languageIcon == if Truthy(repo.language) then LanguageIcon(repo.language.value) else Config.DefaultLanguageIcon
    ensures c.stars == repo.stars.GetOr(0)
    ensures c.updated == FormatDate(repo.updatedAt, now)
    ensures c.topics.Some? <==> repo.topics.Some? && repo.topics.value != []
    ensures c.topics.Some? ==>
      && |c.topics.value| == Min(|repo.topics.value|, MaxTopics)
      && c.topics.value <= repo.topics.value
    ensures c.link == repo.htmlUrl
  {
    FeaturedCard(
      repo.name,
      TruncateText(repo.description, FeaturedDescriptionLength),
      if Truthy(repo.language) then repo.language else None,
      if Truthy(repo.language) then LanguageIcon(repo.language.value) else Config.DefaultLanguageIcon,
      repo.stars.GetOr(0),
      FormatDate(repo.updatedAt, now),
      if repo.topics.Some? && repo.topics.value != [] then Some(Take(repo.topics.value, MaxTopics)) else None,
      repo.htmlUrl)
  }

  /** What the container shows once `loadProjects` has finished. */
  datatype View = EmptyState | ErrorState | Grid(cards: seq<FeaturedCard>)

  function CreateCards(repos: seq<Repo>, now: int): (r: seq<FeaturedCard>)
    ensures |r| == |repos|
    ensures forall i :: 0 <= i < |r| ==> r[i] == CreateCard(repos[i], now)
  {
    if |repos| == 0 then [] else [CreateCard(repos[0], now)] + CreateCards(repos[1..], now)
  }

  /**
   * `loadProjects()` once the pinned list has arrived (`getPinnedRepos` never rejects).
   * `normalizeUrlDefined` says whether the imported `normalizeUrl` is a function: when
   * it is not, the first `createCard` call throws and the `catch` shows the error notice.
   */
  function Load(repos: seq<Repo>, now: int, normalizeUrlDefined: bool): (v: View)
    ensures v.EmptyState? <==> repos == []
    ensures v.ErrorState? <==> repos != [] && !normalizeUrlDefined
    ensures v.Grid? ==> |v.cards| == |repos| && forall i :: 0 <= i < |repos| ==> v.cards[i] == CreateCard(repos[i], now)
  {
    if |repos| == 0 then EmptyState
    else if !normalizeUrlDefined then ErrorState
    else Grid(CreateCards(repos, now))
  }

  /**
   * `stringHelpers.js` exports no `normalizeUrl`, so with the shipped sources any
   * non-empty pinned list ends in the error notice, and only an empty one in the
   * empty notice: no card is ever shown.
   */
  lemma ShippedHelpersNeverShowCards(repos: seq<Repo>, now: int)
    ensures !Load(repos, now, false).Grid?
    ensures repos != [] ==> Load(repos, now, false) == ErrorState
  {
  }
}

=== FILE: github_service.dfy ===
/**
 * `githubService`: a cache-first read of the user's repositories with a one-hour
 * lifetime, then fork/exclusion filtering and a sort by last update, newest first.
 * The clock, `localStorage` and `fetch` are passed in as values.
 */
module GitHubService {
  import opened Wrappers
  import opened Seqs
  import opened Repos
  import Config

  /** `60 * 60 * 1000` milliseconds. */
  const CacheDuration := 3600000

  /** What `localStorage.getItem` on the cache key and `JSON.parse` make of the stored item. */
  datatype Stored =
    | Inaccessible                                 // reading storage itself throws
    | Empty                                        // no item, or the empty string
    | Garbled                                      // not JSON, or no numeric timestamp
    | Item(timestamp: int, data: Option<seq<Repo>>)

  /** The result of `getFromCache()`; `Threw` is the uncaught storage exception. */
  datatype CacheRead = Threw | Nothing | Data(repos: seq<Repo>)

  /** The response to `GET /users/{user}/repos`: transport or JSON failure, a non-2xx status, or the parsed list. */
  datatype Response = Failed | NotOk(status: int) | Ok(repos: seq<Repo>)

  /** A settled promise: `fetchAllRepositories` resolves with a list or rejects. */
  datatype Outcome = Rejected | Resolved(repos: seq<Repo>)

  /** One call: its outcome, whether the network was asked, and the stored item afterwards. */
  datatype Fetch = Fetch(outcome: Outcome, requested: bool, stored: Stored)

  /** Within the lifetime: strictly less than one hour since the entry was written. */
  predicate Fresh(timestamp: int, now: int) {
    now - timestamp < CacheDuration
  }

  /** `getFromCache()`. */
  function GetFromCache(stored: Stored, now: int): (r: CacheRead)
    ensures r.Threw? <==> stored.Inaccessible?
    ensures r.Data? <==> stored.Item? && Fresh(stored.timestamp, now) && stored.data.Some?
    ensures r.Data? ==> r.repos == stored.data.value
  {
    match stored
    case Inaccessible => Threw
    case Empty => Nothing
    case Garbled => Nothing
    case Item(timestamp, data) =>
      if now - timestamp < CacheDuration && data.Some? then Data(data.value) else Nothing
  }

  /** `saveToCache(data)`: a failing `setItem` (quota, privacy mode) is swallowed and leaves the item as it was. */
  function SaveToCache(stored: Stored, data: seq<Repo>, now: int, writable: bool): (r: Stored)
    ensures writable ==> r == Item(now, Some(data))
    ensures !writable ==> r == stored
  {
    if writable then Item(now, Some(data)) else stored
  }

  /** What was saved is read back exactly while it is fresh, and not at all afterwards. */
  lemma SaveThenGet(stored: Stored, data: seq<Repo>, saved: int, now: int)
    ensures GetFromCache(SaveToCache(stored, data, saved, true), now) == Data(data) <==> now - saved < CacheDuration
    ensures now - saved >= CacheDuration ==> GetFromCache(SaveToCache(stored, data, saved, true), now) == Nothing
  {
  }

  /** The repositories worth showing: not forks, not excluded by name. */
  predicate Kept(r: Repo, excluded: seq<string>) {
    !r.fork && r.name !in excluded
  }

  /**
   * The sort key `new Date(updated_at)`. A missing or unparseable date makes the
   * comparator return NaN, which leaves the engine's order unspecified; such
   * repositories sort as the epoch here.
   */
  function Recency(r: Repo): int {
    if r.updatedAt.At? then r.updatedAt.ms else 0
  }

  predicate NewestFirst(rs: seq<Repo>) {
    forall i, j :: 0 <= i < j < |rs| ==> Recency(rs[i]) >= Recency(rs[j])
  }

  /** Insert `x` into a newest-first list, after every strictly newer entry and before its ties. */
  function Insert(x: Repo, rs: seq<Repo>): (r: seq<Repo>)
    requires NewestFirst(rs)
    ensures NewestFirst(r)
    ensures multiset(r) == multiset(rs) + multiset{x}
    ensures forall y :: y in r ==> y in rs || y == x
  {
    if |rs| == 0 then [x]
    else if Recency(rs[0]) > Recency(x) then
      var tail := Insert(x, rs[1..]);
      InsertHead(rs[0], x, rs[1..], tail);
      assert rs == [rs[0]] + rs[1..];
      [rs[0]] + tail
    else
      [x] + rs
  }

  lemma InsertHead(h: Repo, x: Repo, rest: seq<Repo>, tail: seq<Repo>)
    requires forall i :: 0 <= i < |rest| ==> Recency(h) >= Recency(rest[i])
    requires Recency(h) >= Recency(x)
    requires NewestFirst(tail)
    requires forall y :: y in tail ==> y in rest || y == x
    ensures NewestFirst([h] + tail)
  {
    forall j | 0 <= j < |tail| ensures Recency(h) >= Recency(tail[j]) {
      assert tail[j] in tail;
    }
  }

  /** `.sort((a, b) => new Date(b.updated_at) - new Date(a.updated_at))`. */
  function SortByRecency(rs: seq<Repo>): (r: seq<Repo>)
    ensures NewestFirst(r)
    ensures multiset(r) == multiset(rs)
  {
    if |rs| == 0 then []
    else
      assert rs == [rs[0]] + rs[1..];
      Insert(rs[0], SortByRecency(rs[1..]))
  }

  /** The entries last updated at time `t`. */
  function UpdatedAt(t: int): Repo -> bool {
    r => Recency(r) == t
  }

  /** Inserting `x` puts it in front of every tie, so ties keep the order they arrive in. */
  lemma {:induction false} InsertKeepsTies(x: Repo, rs: seq<Repo>, t: int)
    requires NewestFirst(rs)
    ensures Filter(Insert(x, rs), UpdatedAt(t)) == Filter([x], UpdatedAt(t)) + Filter(rs, UpdatedAt(t))
  {
    if |rs| == 0 {
      assert [x] + rs == [x];
    } else if Recency(rs[0]) > Recency(x) {
      var tail := Insert(x, rs[1..]);
      InsertKeepsTies(x, rs[1..], t);
      FilterAppend([rs[0]], tail, UpdatedAt(t));
      FilterAppend([rs[0]], rs[1..], UpdatedAt(t));
      assert rs == [rs[0]] + rs[1..];
    } else {
      FilterAppend([x], rs, UpdatedAt(t));
    }
  }

  /**
   * The sort is stable, as `Array.prototype.sort` is: the repositories updated at
   * any one time come out in the order they came in.
   */
  lemma {:induction false} SortIsStable(rs: seq<Repo>, t: int)
    ensures Filter(SortByRecency(rs), UpdatedAt(t)) == Filter(rs, UpdatedAt(t))
  {
    if |rs| > 0 {
      InsertKeepsTies(rs[0], SortByRecency(rs[1..]), t);
      SortIsStable(rs[1..], t);
      FilterAppend([rs[0]], rs[1..], UpdatedAt(t));
      assert rs == [rs[0]] + rs[1..];
    }
  }

  /** The list a successful response yields: kept repositories, newest first. */
  function Select(repos: seq<Repo>, excluded: seq<string>): (r: seq<Repo>)
    ensures forall x :: x in r ==> !x.fork && x.name !in excluded
    ensures NewestFirst(r)
    ensures multiset(r) == multiset(Filter(repos, x => Kept(x, excluded)))
    ensures forall t :: Filter(r, UpdatedAt(t)) == Filter(Filter(repos, x => Kept(x, excluded)), UpdatedAt(t))
  {
    var kept := Filter(repos, x => Kept(x, excluded));
    var sorted := SortByRecency(kept);
    forall t ensures Filter(sorted, UpdatedAt(t)) == Filter(kept, UpdatedAt(t)) {
      SortIsStable(kept, t);
    }
    assert forall x :: x in sorted ==> x in kept by {
      forall x | x in sorted ensures x in kept {
        assert x in multiset(sorted);
      }
    }
    sorted
  }

  /**
   * `fetchAllRepositories()` at time `now`, given the stored item, the response the
   * request would receive, whether storage accepts writes, and `savedAt`, the clock
   * reading `saveToCache` takes after the response has arrived.
   */
  function FetchAll(stored: Stored, now: int, response: Response, excluded: seq<string>, writable: bool, savedAt: int): (f: Fetch)
    // A storage that cannot be read makes the call reject before any request.
    ensures stored.Inaccessible? ==> f == Fetch(Rejected, false, stored)
    // A fresh cached list is returned verbatim, without a request.
    ensures GetFromCache(stored, now).Data? ==> f == Fetch(Resolved(GetFromCache(stored, now).repos), false, stored)
    // Otherwise one request is made.
    ensures GetFromCache(stored, now).Nothing? ==> f.requested && f.outcome.Resolved?
    // Failures resolve to the empty list and leave the cache alone.
    ensures GetFromCache(stored, now).Nothing? && !response.Ok? ==> f.outcome.repos == [] && f.stored == stored
    // Success: the selected list is returned and written with the current time.
    ensures GetFromCache(stored, now).Nothing? && response.Ok? ==>
      && f.outcome.repos == Select(response.repos, excluded)
      && f.stored == SaveToCache(stored, f.outcome.repos, savedAt, writable)
  {
    match GetFromCache(stored, now)
    case Threw => Fetch(Rejected, false, stored)
    case Data(repos) => Fetch(Resolved(repos), false, stored)
    case Nothing =>
      match response
      case Failed => Fetch(Resolved([]), true, stored)
      case NotOk(_) => Fetch(Resolved([]), true, stored)
      case Ok(repos) =>
        var result := Select(repos, excluded);
        Fetch(Resolved(result), true, SaveToCache(stored, result, savedAt, writable))
  }

  /** Whatever happens, no fork and no excluded name reaches the caller. */
  lemma NoForkOrExcluded(stored: Stored, now: int, response: Response, excluded: seq<string>, writable: bool, savedAt: int)
    requires forall t :: stored.Item? && stored.data.Some? && t in stored.data.value ==> Kept(t, excluded)
    ensures var f := FetchAll(stored, now, response, excluded, writable, savedAt);
      f.outcome.Resolved? ==> forall x :: x in f.outcome.repos ==> !x.fork && x.name !in excluded
  {
  }

  /**
   * A fetch that succeeds and is stored is served from the cache by any later call
   * made less than an hour after the write, which returns the same list without a request.
   */
  lemma {:induction false} CacheRoundTrip(stored: Stored, t0: int, saved: int, t1: int, response: Response, next: Response, excluded: seq<string>, savedAgain: int)
    requires GetFromCache(stored, t0).Nothing? && response.Ok?
    requires t1 - saved < CacheDuration
    ensures var first := FetchAll(stored, t0, response, excluded, true, saved);
      var second := FetchAll(first.stored, t1, next, excluded, true, savedAgain);
      && !second.requested
      && second.outcome == first.outcome
      && second.stored == first.stored
  {
    var first := FetchAll(stored, t0, response, excluded, true, saved);
    assert first.stored == Item(saved, Some(first.outcome.repos));
    assert GetFromCache(first.stored, t1) == Data(first.outcome.repos);
  }

  /** Once an hour or more has passed, the stored list is ignored and the network is asked again. */
  lemma CacheExpires(timestamp: int, data: seq<Repo>, now: int, response: Response, excluded: seq<string>, writable: bool, savedAt: int)
    requires now - timestamp >= CacheDuration
    ensures FetchAll(Item(timestamp, Some(data)), now, response, excluded, writable, savedAt).requested
  {
  }

  /** With the shipped configuration nothing is excluded by name: exactly the forks are dropped. */
  lemma ShippedConfigDropsOnlyForks(repos: seq<Repo>)
    ensures forall x :: x in Select(repos, Config.ExcludedRepos) <==> x in repos && !x.fork
  {
    var kept := Filter(repos, x => Kept(x, Config.ExcludedRepos));
    forall x ensures x in Select(repos, Config.ExcludedRepos) <==> x in kept {
      assert x in Select(repos, Config.ExcludedRepos) <==> x in multiset(kept);
    }
  }
}

=== FILE: legacy_projects.dfy ===
/**
 * The legacy `projectsScript.js`: cards for the configured repositories, padding
 * placeholders, and an "infinite" carousel built from cloned cards whose index is
 * corrected after each transition.
 */
module LegacyProjects {
  import opened Wrappers
  import opened Strings
  import opened Seqs

  const GitHubRepos: seq<string> := ["daniel-kindl.github.io"]
  const CardsMax := 3
  const MaxDescLength := 200
  const CardsVisible := 3

  const NoDescription := "No description available."

  // ----- card text --------------------------------------------------------------

  /** The description rule: a default for absent or empty text, and a cut at 200 characters. */
  function Description(desc: Option<string>): (r: string)
    ensures desc.None? || desc.value == "" ==> r == NoDescription
    ensures desc.Some? && 0 < |desc.value| <= MaxDescLength ==> r == desc.value
    ensures desc.Some? && |desc.value| > MaxDescLength ==>
      && 3 <= |r| <= MaxDescLength + 3
      && r[|r| - 3..] == "..."
      && r[..|r| - 3] == Trim(desc.value[..MaxDescLength])
  {
    var d := if desc.None? || desc.value == "" then NoDescription else desc.value;
    if |d| > MaxDescLength then Trim(d[..MaxDescLength]) + "..." else d
  }

  /** `Object.keys(languages).slice(0, 3)` rendered as "Tech: a, b, c", or "Tech: Unknown". */
  function LangText(keys: seq<string>): (r: string)
    ensures StartsWith(r, "Tech: ")
    ensures keys == [] ==> r == "Tech: Unknown"
    ensures |keys| >= 1 ==> r == "Tech: " + Join(Take(keys, 3), ", ")
  {
    var r := if |keys| == 0 then "Tech: Unknown" else "Tech: " + Join(Take(keys, 3), ", ");
    assert r[..6] == "Tech: ";
    r
  }

  /** Only the first three language names reach the card. */
  lemma LangTextUsesFirstThree(keys: seq<string>)
    requires |keys| >= 3
    ensures LangText(keys) == LangText(keys[..3])
  {
    assert Take(keys, 3) == keys[..3] == Take(keys[..3], 3);
  }

  /** `Math.max(0, CARDS_MAX - GITHUB_REPOS.length)`: computed from the configured names, not from the fetches that worked. */
  function Placeholders(configured: nat): (r: nat)
    ensures configured < CardsMax ==> configured + r == CardsMax
    ensures configured >= CardsMax ==> r == 0
  {
    if configured >= CardsMax then 0 else CardsMax - configured
  }

  datatype Card = RepoCard(title: string, description: string, link: string, langs: string) | Placeholder

  /** What the two requests for one configured name gave: the repository (`None` when `fetchRepo` returned null) and the language keys (`[]` for `{}`). */
  datatype Fetched = Fetched(repo: Option<(string, Option<string>, string)>, languageKeys: seq<string>)

  /** `if (!REPO) continue;`: only a fetched repository gets a card. */
  predicate Succeeded(f: Fetched) {
    f.repo.Some?
  }

  /** The card built from one fetched repository: name, description rule, page link, language text. */
  function CardOf(f: Fetched): Card
    requires Succeeded(f)
  {
    var (name, desc, url) := f.repo.value;
    RepoCard(name, Description(desc), url, LangText(f.languageKeys))
  }

  /** The repository cards, in configured order: exactly one per name whose repository was fetched. */
  function RepoCards(fetched: seq<Fetched>): (r: seq<Card>)
    ensures var ok := Filter(fetched, Succeeded);
      && |r| == |ok|
      && forall i :: 0 <= i < |r| ==> Succeeded(ok[i]) && r[i] == CardOf(ok[i])
  {
    if |fetched| == 0 then []
    else
      var f := fetched[0];
      var rest := RepoCards(fetched[1..]);
      var ok := Filter(fetched, Succeeded);
      assert ok == (if Succeeded(f) then [f] else []) + Filter(fetched[1..], Succeeded);
      (if Succeeded(f) then [CardOf(f)] else []) + rest
  }

  /** A configured name whose repository could not be fetched leaves no trace among the cards. */
  lemma {:induction false} FailedFetchIsSkipped(a: seq<Fetched>, keys: seq<string>, b: seq<Fetched>)
    ensures RepoCards(a + [Fetched(None, keys)] + b) == RepoCards(a) + RepoCards(b)
  {
    FilterAppend(a + [Fetched(None, keys)], b, Succeeded);
    FilterAppend(a, [Fetched(None, keys)], Succeeded);
    FilterAppend(a, b, Succeeded);
    assert Filter([Fetched(None, keys)], Succeeded) == [];
    RepoCardsOfFilter(a + [Fetched(None, keys)] + b, RepoCards(a) + RepoCards(b));
  }

  /** Two card lists agree when both are the cards of the same filtered list. */
  lemma RepoCardsOfFilter(fetched: seq<Fetched>, r: seq<Card>)
    requires var ok := Filter(fetched, Succeeded);
      && |r| == |ok|
      && forall i :: 0 <= i < |r| ==> Succeeded(ok[i]) && r[i] == CardOf(ok[i])
    ensures RepoCards(fetched) == r
  {
  }

  /** `loadProjects()`: a card per repository that could be fetched, then the placeholders. */
  function Cards(fetched: seq<Fetched>): (r: seq<Card>)
    requires |fetched| == |GitHubRepos|
    ensures |r| >= Placeholders(|GitHubRepos|) == 2
    ensures |r| <= |GitHubRepos| + 2
    ensures r[..|r| - 2] == RepoCards(fetched)
    ensures forall i :: |r| - 2 <= i < |r| ==> r[i] == Placeholder
  {
    RepoCards(fetched) + seq(Placeholders(|GitHubRepos|), _ => Placeholder)
  }

  // ----- infinite carousel ------------------------------------------------------

  /** `cards.slice(-3)` and `cards.slice(0, 3)`. */
  function LastThree<T>(cards: seq<T>): seq<T> {
    cards[|cards| - Min(CardsVisible, |cards|)..]
  }

  function FirstThree<T>(cards: seq<T>): seq<T> {
    Take(cards, CardsVisible)
  }

  function Reverse<T>(s: seq<T>): (r: seq<T>)
    ensures |r| == |s|
    ensures forall i :: 0 <= i < |s| ==> r[i] == s[|s| - 1 - i]
  {
    if |s| == 0 then [] else Reverse(s[1..]) + [s[0]]
  }

  /**
   * The track as the code builds it: each `insertBefore(clone, firstChild)` puts the
   * clone in front of the previous one, so the leading clones end up reversed.
   */
  function TrackAsWritten<T>(cards: seq<T>): (r: seq<T>)
    ensures var m := Min(CardsVisible, |cards|);
      && |r| == |cards| + 2 * m
      && (forall i :: 0 <= i < m ==> r[i] == cards[|cards| - 1 - i])
      && r[m..m + |cards|] == cards
      && (forall i :: 0 <= i < m ==> r[m + |cards| + i] == cards[i])
  {
    var m := Min(CardsVisible, |cards|);
    var r := Reverse(LastThree(cards)) + cards + FirstThree(cards);
    assert r[m..m + |cards|] == cards;
    r
  }

  /** The track the seamless loop needs: the last three cards in order, the cards, the first three. */
  function Track<T>(cards: seq<T>): (r: seq<T>)
    requires |cards| >= CardsVisible
    ensures |r| == |cards| + 2 * CardsVisible
    ensures forall i :: 0 <= i < |r| ==> r[i] == cards[(i - CardsVisible) % |cards|]
  {
    var n := |cards|;
    var r := LastThree(cards) + cards + FirstThree(cards);
    forall i | 0 <= i < |r| ensures r[i] == cards[(i - CardsVisible) % n] {
      ModRange(i - CardsVisible, n);
    }
    r
  }

  lemma ModRange(x: int, n: nat)
    requires n > 0 && 0 <= x + n < 3 * n
    ensures x % n == if x < 0 then x + n else if x < n then x else x - n
  {
  }

  /** The starting index: the first real card. */
  const StartIndex := CardsVisible

  /** The track opens on the first real card, and the last real card sits just before the trailing clones. */
  lemma StartShowsFirstCard<T>(cards: seq<T>)
    requires |cards| >= CardsVisible
    ensures Track(cards)[StartIndex] == cards[0]
    ensures Track(cards)[StartIndex + |cards| - 1] == cards[|cards| - 1]
  {
    ModRange(0, |cards|);
    ModRange(|cards| - 1, |cards|);
  }

  /** A click, or Enter/Space on a focused button: `+1` for next, `-1` for previous; other keys do nothing. */
  datatype Input = Click | Key(key: string)

  function Move(index: int, forward: bool, input: Input): (r: int)
    ensures (input.Click? || input.key == "Enter" || input.key == " ") ==> r == if forward then index + 1 else index - 1
    ensures !(input.Click? || input.key == "Enter" || input.key == " ") ==> r == index
  {
    if input.Click? || input.key == "Enter" || input.key == " " then
      (if forward then index + 1 else index - 1)
    else index
  }

  /** The `transitionend` correction: past the end back to the first real card, before the start to the last. */
  function Settle(index: int, total: nat): (r: int)
    ensures index >= total + CardsVisible ==> r == CardsVisible
    ensures CardsVisible <= index < total + CardsVisible ==> r == index
    ensures index < CardsVisible && index < total + CardsVisible ==> r == total + CardsVisible - 1
  {
    if index >= total + CardsVisible then CardsVisible
    else if index < CardsVisible then total + CardsVisible - 1
    else index
  }

  /** One step from a real card, the correction lands on a real card again. */
  lemma SettleLandsOnRealCard(index: int, total: nat)
    requires total > 0 && CardsVisible - 1 <= index <= total + CardsVisible
    ensures CardsVisible <= Settle(index, total) < total + CardsVisible
  {
  }

  /**
   * With the clones in order, the correction is invisible: the `CardsVisible`
   * cards in the window before the jump are the cards in it after.
   */
  lemma SettleIsSeamless<T>(cards: seq<T>, index: int)
    requires |cards| >= CardsVisible
    requires CardsVisible - 1 <= index <= |cards| + CardsVisible
    ensures Track(cards)[Settle(index, |cards|)..Settle(index, |cards|) + CardsVisible] == Track(cards)[index..index + CardsVisible]
  {
    var n := |cards|;
    var s := Settle(index, n);
    var t := Track(cards);
    var shown, before := t[s..s + CardsVisible], t[index..index + CardsVisible];
    forall j | 0 <= j < CardsVisible ensures shown[j] == before[j] {
      ModRange(s + j - CardsVisible, n);
      ModRange(index + j - CardsVisible, n);
      assert shown[j] == t[s + j] == cards[(s + j - CardsVisible) % n];
      assert before[j] == t[index + j] == cards[(index + j - CardsVisible) % n];
    }
  }

  /**
   * As written, stepping back from the first of four cards shows the second card
   * (the reversed clone) and the correction then jumps to the fourth.
   */
  lemma ReversedClonesJump()
    ensures TrackAsWritten([0, 1, 2, 3])[StartIndex - 1] == 1
    ensures TrackAsWritten([0, 1, 2, 3])[Settle(StartIndex - 1, 4)] == 3
    ensures Track([0, 1, 2, 3])[StartIndex - 1] == 3
  {
    assert LastThree([0, 1, 2, 3]) == [1, 2, 3];
    assert Reverse([1, 2, 3]) == [3, 2, 1];
  }
}

=== FILE: pinned_repos.dfy ===
/** `pinnedReposService`: remote pinned list first, configured featured list as the fallback. */
module PinnedRepos {
  import opened Wrappers
  import opened Repos

  /** The response to `GET /data/pinned-repos.json`: failure or malformed JSON, a non-2xx status, or the body's `repos` field. */
  datatype Response = Failed | NotOk(status: int) | Ok(repos: Option<seq<Repo>>)

  /** `getFallbackProjects()`: `config.featuredProjects || []`. */
  function Fallback(featured: Option<seq<Repo>>): (r: seq<Repo>)
    ensures featured.Some? ==> r == featured.value
    ensures featured.None? ==> r == []
  {
    featured.GetOr([])
  }

  /** `getPinnedRepos()`. */
  function GetPinnedRepos(response: Response, featured: Option<seq<Repo>>): (r: seq<Repo>)
    ensures response.Ok? && response.repos.Some? && response.repos.value != [] ==> r == response.repos.value
    ensures !(response.Ok? && response.repos.Some? && response.repos.value != []) ==> r == Fallback(featured)
    ensures r == [] <==> (!response.Ok? || response.repos.None? || response.repos.value == []) && Fallback(featured) == []
  {
    match response
    case Ok(Some(repos)) => if |repos| > 0 then repos else Fallback(featured)
    case _ => Fallback(featured)
  }

  /** The scenario where the file holds `{ repos: [] }`: the fallback comes back, not an empty list. */
  lemma EmptyFileFallsBack(featured: seq<Repo>)
    ensures GetPinnedRepos(Ok(Some([])), Some(featured)) == featured
  {
  }
}

=== FILE: project_card.dfy ===
/** `projectCard.create` and `createTechBadges`: the card projection of a repository. */
module ProjectCard {
  import opened Wrappers
  import opened Seqs
  import opened Repos
  import opened StringHelpers
  import Config

  const NoLanguages := "No languages detected"

  datatype Badge = Badge(icon: string, text: string)

  datatype Card = Card(icon: string, title: string, description: string, badges: seq<Badge>, link: string)

  /**
   * `createTechBadges(languages)`: one placeholder badge when there are no languages,
   * otherwise one badge per language, in order, up to the configured maximum.
   */
  function TechBadges(languages: Option<seq<string>>): (r: seq<Badge>)
    ensures languages.None? || languages.value == [] ==> r == [Badge(Config.DefaultLanguageIcon, NoLanguages)]
    ensures languages.Some? && languages.value != [] ==>
      && |r| == Min(|languages.value|, Config.MaxLanguagesPerProject)
      && forall i :: 0 <= i < |r| ==> r[i] == Badge(LanguageIcon(languages.value[i]), languages.value[i])
  {
    if languages.None? || languages.value == [] then [Badge(Config.DefaultLanguageIcon, NoLanguages)]
    else Badges(Take(languages.value, Config.MaxLanguagesPerProject))
  }

  function Badges(langs: seq<string>): (r: seq<Badge>)
    ensures |r| == |langs|
    ensures forall i :: 0 <= i < |r| ==> r[i] == Badge(LanguageIcon(langs[i]), langs[i])
  {
    if |langs| == 0 then [] else [Badge(LanguageIcon(langs[0]), langs[0])] + Badges(langs[1..])
  }

  function Labels(badges: seq<Badge>): seq<string> {
    if |badges| == 0 then [] else [badges[0].text] + Labels(badges[1..])
  }

  /** Reading the labels back off the badges gives the first four languages, in order. */
  lemma {:induction false} BadgeLabelsAreLanguages(languages: seq<string>)
    requires languages != []
    ensures Labels(TechBadges(Some(languages))) == Take(languages, Config.MaxLanguagesPerProject)
  {
    LabelsOfBadges(Take(languages, Config.MaxLanguagesPerProject));
  }

  lemma {:induction false} LabelsOfBadges(langs: seq<string>)
    ensures Labels(Badges(langs)) == langs
  {
    if |langs| > 0 {
      LabelsOfBadges(langs[1..]);
      assert Badges(langs)[1..] == Badges(langs[1..]);
      assert langs == [langs[0]] + langs[1..];
    }
  }

  /** `projectCard.create(repo, languages)`. */
  function Create(repo: Repo, languages: Option<seq<string>>): (c: Card)
    ensures c.description == TruncateText(repo.description, 120)
    ensures c.link == repo.htmlUrl && c.title == repo.name
    ensures c.icon == Config.DefaultProjectIcon
    ensures c.badges == TechBadges(languages)
    ensures 1 <= |c.badges| <= Config.MaxLanguagesPerProject
  {
    Card(Config.DefaultProjectIcon, repo.name, TruncateDefault(repo.description), TechBadges(languages), repo.htmlUrl)
  }
}

=== FILE: project_gallery.dfy ===
/**
 * `projectGallery`: the featured list merged with the GitHub list, filter buttons
 * for every language and topic, one active filter, and "Load More" paging.
 * The page size (`config.github.projectsPerPage`) and the featured list
 * (`config.featuredProjects`) are parameters; the page size may be `undefined`,
 * as it is in the shipped configuration.
 */
module ProjectGallery {
  import opened Wrappers
  import opened Strings
  import opened Seqs
  import opened Repos
  import GitHubService
  import ProjectCard
  import Config

  const AllFilter := "All"

  /**
   * The value of `this.visibleCount`: a number, `undefined` (copied from an unset
   * `projectsPerPage`), or the `NaN` that `+=` makes when either side is not a number.
   */
  datatype Count = Num(n: nat) | Undefined | NaN

  /** `this.visibleCount = config.github.projectsPerPage`. */
  function PageCount(pageSize: Option<nat>): Count {
    if pageSize.Some? then Num(pageSize.value) else Undefined
  }

  /** `this.visibleCount += config.github.projectsPerPage`. */
  function AddPage(c: Count, pageSize: Option<nat>): (r: Count)
    ensures r.Num? <==> c.Num? && pageSize.Some?
    ensures r.Num? ==> r.n == c.n + pageSize.value
  {
    if c.Num? && pageSize.Some? then Num(c.n + pageSize.value) else NaN
  }

  /** The end `slice(0, c)` stops at in a list of `len`: `undefined` means the end, `NaN` means 0. */
  function SliceEnd(c: Count, len: nat): (r: nat)
    ensures r <= len
  {
    match c
    case Num(n) => Min(n, len)
    case Undefined => len
    case NaN => 0
  }

  /** `len > c`: false whenever `c` is `undefined` or `NaN`. */
  predicate MoreThan(len: nat, c: Count) {
    c.Num? && len > c.n
  }

  datatype Gallery = Gallery(projects: seq<Repo>, activeFilter: string, visibleCount: Count)

  /** The constructor's state: nothing loaded, "All" active, one page visible. */
  function Init(pageSize: Option<nat>): (g: Gallery)
    ensures g.activeFilter == AllFilter && g.projects == []
    ensures pageSize.Some? ==> g.visibleCount == Num(pageSize.value)
    ensures pageSize.None? ==> g.visibleCount == Undefined
    ensures Render(g) == NoResults
  {
    Gallery([], AllFilter, PageCount(pageSize))
  }

  // ----- merging -------------------------------------------------------------

  /** The de-duplication key: the repository URL, lower-cased. */
  function UrlKey(p: Repo): string {
    ToLower(p.htmlUrl)
  }

  function FeaturedKeys(featured: seq<Repo>): set<string> {
    set p | p in featured :: UrlKey(p)
  }

  /** The test `!featuredUrls.has(p.html_url.toLowerCase())`. */
  function NotFeatured(featured: seq<Repo>): Repo -> bool {
    var keys := FeaturedKeys(featured);
    p => UrlKey(p) !in keys
  }

  /** The GitHub projects whose key no featured project has, in their original order. */
  function Novel(featured: seq<Repo>, github: seq<Repo>): (r: seq<Repo>)
    ensures forall p :: p in r <==> p in github && forall f :: f in featured ==> UrlKey(f) != UrlKey(p)
  {
    var keys := FeaturedKeys(featured);
    var r := Filter(github, NotFeatured(featured));
    assert forall p :: p in github ==> (UrlKey(p) in keys <==> exists f :: f in featured && UrlKey(f) == UrlKey(p));
    r
  }

  /** `[...featured, ...uniqueGithubProjects]`. */
  function Merge(featured: seq<Repo>, github: seq<Repo>): (r: seq<Repo>)
    ensures |featured| <= |r| <= |featured| + |github|
    ensures r[..|featured|] == featured
    ensures forall p :: p in r[|featured|..] <==> p in github && forall f :: f in featured ==> UrlKey(f) != UrlKey(p)
  {
    var r := featured + Novel(featured, github);
    assert r[|featured|..] == Novel(featured, github);
    r
  }

  /** The GitHub part of the merge keeps the GitHub order: merging a concatenation appends. */
  lemma MergeKeepsOrder(featured: seq<Repo>, a: seq<Repo>, b: seq<Repo>)
    ensures Merge(featured, a + b) == Merge(featured, a) + Novel(featured, b)
  {
    FilterAppend(a, b, NotFeatured(featured));
  }

  /** No GitHub project whose URL matches a featured one up to case survives the merge. */
  lemma MergeDropsCaseInsensitiveDuplicates(featured: seq<Repo>, github: seq<Repo>, f: Repo, g: Repo)
    requires f in featured && g in github
    requires ToLower(f.htmlUrl) == ToLower(g.htmlUrl)
    ensures g !in Merge(featured, github)[|featured|..]
  {
  }

  // ----- loading -------------------------------------------------------------

  /** What the grid shows once loading has finished. */
  datatype Screen = EmptyNotice | ErrorNotice | Ready

  datatype Loaded = Loaded(gallery: Gallery, screen: Screen)

  /**
   * `loadProjects()` given how `fetchAllRepositories` settled and `config.featuredProjects`.
   * A rejection is caught: the featured list is shown if it is non-empty, otherwise the error notice.
   */
  function Load(g: Gallery, fetched: GitHubService.Outcome, featured: Option<seq<Repo>>): (r: Loaded)
    ensures r.gallery.activeFilter == g.activeFilter && r.gallery.visibleCount == g.visibleCount
    ensures fetched.Resolved? ==>
      && r.gallery.projects == Merge(featured.GetOr([]), fetched.repos)
      && (r.screen == EmptyNotice <==> featured.GetOr([]) == [] && fetched.repos == [])
      && r.screen != ErrorNotice
    ensures fetched.Rejected? && featured.Some? && featured.value != [] ==>
      r == Loaded(g.(projects := featured.value), Ready)
    ensures fetched.Rejected? && (featured.None? || featured.value == []) ==>
      r == Loaded(g, ErrorNotice)
  {
    match fetched
    case Resolved(github) =>
      var merged := Merge(featured.GetOr([]), github);
      Loaded(g.(projects := merged), if merged == [] then EmptyNotice else Ready)
    case Rejected =>
      if featured.Some? && featured.value != [] then Loaded(g.(projects := featured.value), Ready)
      else Loaded(g, ErrorNotice)
  }

  // ----- filter buttons ------------------------------------------------------

  /** What `renderFilters` collects from one project: a truthy language and every topic. */
  function ButtonTags(p: Repo): seq<string> {
    (if Truthy(p.language) then [p.language.value] else []) + p.topics.GetOr([])
  }

  ghost predicate HasTag(projects: seq<Repo>, t: string) {
    exists p :: p in projects && t in ButtonTags(p)
  }

  /** Insert `t` into a strictly ascending list of distinct tags. */
  function InsertTag(t: string, s: seq<string>): (r: seq<string>)
    requires StrictlySorted(s)
    ensures StrictlySorted(r)
    ensures forall x :: x in r <==> x in s || x == t
  {
    if |s| == 0 then [t]
    else if t == s[0] then s
    else if Less(t, s[0]) then
      PrependSorted(t, s);
      [t] + s
    else
      LessTotal(t, s[0]);
      var rest := InsertTag(t, s[1..]);
      assert forall x :: x in s[1..] ==> Less(s[0], x) by {
        forall x | x in s[1..] ensures Less(s[0], x) {
          var k :| 0 <= k < |s[1..]| && s[1..][k] == x;
          assert s[k + 1] == x;
        }
      }
      PrependSortedAll(s[0], rest);
      assert s == [s[0]] + s[1..];
      [s[0]] + rest
  }

  lemma PrependSorted(t: string, s: seq<string>)
    requires StrictlySorted(s) && |s| > 0 && Less(t, s[0])
    ensures StrictlySorted([t] + s)
  {
    forall j | 0 <= j < |s| ensures Less(t, s[j]) {
      if j > 0 { LessTransitive(t, s[0], s[j]); }
    }
  }

  lemma PrependSortedAll(h: string, s: seq<string>)
    requires StrictlySorted(s) && forall x :: x in s ==> Less(h, x)
    ensures StrictlySorted([h] + s)
  {
    forall j | 0 <= j < |s| ensures Less(h, s[j]) {
      assert s[j] in s;
    }
  }

  function AddTags(ts: seq<string>, s: seq<string>): (r: seq<string>)
    requires StrictlySorted(s)
    ensures StrictlySorted(r)
    ensures forall x :: x in r <==> x in s || x in ts
  {
    if |ts| == 0 then s else AddTags(ts[1..], InsertTag(ts[0], s))
  }

  function AddProjectTags(projects: seq<Repo>, s: seq<string>): (r: seq<string>)
    requires StrictlySorted(s)
    ensures StrictlySorted(r)
    ensures forall x :: x in r <==> x in s || HasTag(projects, x)
  {
    if |projects| == 0 then s
    else
      var r := AddProjectTags(projects[1..], AddTags(ButtonTags(projects[0]), s));
      assert forall x :: HasTag(projects, x) <==> x in ButtonTags(projects[0]) || HasTag(projects[1..], x) by {
        forall x ensures HasTag(projects, x) <==> x in ButtonTags(projects[0]) || HasTag(projects[1..], x) {
          if HasTag(projects, x) {
            var p :| p in projects && x in ButtonTags(p);
            if p != projects[0] {
              var k :| 0 <= k < |projects| && projects[k] == p;
              assert projects[1..][k - 1] == p;
            }
          }
          if HasTag(projects[1..], x) {
            var p :| p in projects[1..] && x in ButtonTags(p);
            assert p in projects;
          }
        }
      }
      r
  }

  /**
   * The filter buttons `renderFilters` creates: "All" and every language and topic
   * of the loaded projects, each once, in ascending order.
   */
  function FilterButtons(projects: seq<Repo>): (r: seq<string>)
    ensures StrictlySorted(r)
    ensures forall x :: x in r <==> x == AllFilter || HasTag(projects, x)
  {
    AddProjectTags(projects, [AllFilter])
  }

  /**
   * At most one button carries the active filter, so at most one is marked active:
   * in a strictly sorted list a tag occurs at most once.
   */
  lemma {:induction false} AtMostOneActiveButton(projects: seq<Repo>, active: string, i: int, j: int)
    requires 0 <= i < |FilterButtons(projects)| && 0 <= j < |FilterButtons(projects)|
    requires FilterButtons(projects)[i] == active && FilterButtons(projects)[j] == active
    ensures i == j
  {
    LessIrreflexive(active);
  }

  /** "All", and any language or topic of a loaded project, has a button to mark active. */
  lemma ActiveFilterHasButton(projects: seq<Repo>, active: string)
    requires active == AllFilter || HasTag(projects, active)
    ensures exists i :: 0 <= i < |FilterButtons(projects)| && FilterButtons(projects)[i] == active
  {
    assert active in FilterButtons(projects);
  }

  // ----- filtering and paging ------------------------------------------------

  /** The tags a project is matched against: `[language, ...topics].filter(Boolean)`. */
  function MatchTags(p: Repo): seq<string> {
    Filter((if p.language.Some? then [p.language.value] else []) + p.topics.GetOr([]), t => t != "")
  }

  predicate Matches(p: Repo, filter: string) {
    filter in MatchTags(p)
  }

  function MatchesFilter(filter: string): Repo -> bool {
    p => Matches(p, filter)
  }

  /** The projects the active filter keeps, in project order. */
  function Filtered(g: Gallery): (r: seq<Repo>)
    ensures g.activeFilter == AllFilter ==> r == g.projects
    ensures forall p :: p in r <==> p in g.projects && (g.activeFilter == AllFilter || Matches(p, g.activeFilter))
  {
    if g.activeFilter == AllFilter then g.projects else Filter(g.projects, MatchesFilter(g.activeFilter))
  }

  /** A non-"All" filter keeps the matching projects in order: filtering a concatenation appends. */
  lemma FilteredKeepsOrder(a: seq<Repo>, b: seq<Repo>, filter: string, n: Count)
    requires filter != AllFilter
    ensures Filtered(Gallery(a + b, filter, n)) == Filtered(Gallery(a, filter, n)) + Filtered(Gallery(b, filter, n))
  {
    FilterAppend(a, b, MatchesFilter(filter));
  }

  /** The grid `renderProjects` draws. */
  datatype Grid = NoResults | Cards(shown: seq<Repo>, loadMore: bool)

  function Render(g: Gallery): (r: Grid)
    ensures r.NoResults? <==> Filtered(g) == []
    ensures r.Cards? && g.visibleCount.Num? ==>
      && r.shown == Take(Filtered(g), g.visibleCount.n)
      && |r.shown| == Min(g.visibleCount.n, |Filtered(g)|)
      && (r.loadMore <==> |Filtered(g)| > g.visibleCount.n)
    ensures r.Cards? && g.visibleCount.Undefined? ==> r.shown == Filtered(g) && !r.loadMore
    ensures r.Cards? && g.visibleCount.NaN? ==> r.shown == [] && !r.loadMore
  {
    var filtered := Filtered(g);
    if |filtered| == 0 then NoResults
    else Cards(filtered[..SliceEnd(g.visibleCount, |filtered|)], MoreThan(|filtered|, g.visibleCount))
  }

  /**
   * With `projectsPerPage` unset, every render shows all matches and never the
   * Load More button, and filter clicks keep it that way.
   */
  lemma UnsetPageSizeShowsAll(g: Gallery, f: string)
    requires g.visibleCount == Undefined
    ensures var r := Render(g); r.Cards? ==> r.shown == Filtered(g) && !r.loadMore
    ensures Step(g, ClickFilter(f), None).visibleCount == Undefined
  {
  }

  /** The shipped gallery: whatever is loaded and whichever filter is clicked, all matches show. */
  lemma {:induction false} ShippedGalleryNeverPages(projects: seq<Repo>, clicks: seq<string>)
    ensures var g := Clicks(Init(None).(projects := projects), clicks);
      g.visibleCount == Undefined && g.projects == projects &&
      (Filtered(g) != [] ==> Render(g) == Cards(Filtered(g), false))
    decreases |clicks|
  {
    if |clicks| > 0 {
      ShippedGalleryNeverPages(projects, clicks[..|clicks| - 1]);
    }
  }

  /** A run of filter clicks with `projectsPerPage` unset. */
  function Clicks(g: Gallery, clicks: seq<string>): Gallery
    decreases |clicks|
  {
    if |clicks| == 0 then g else Step(Clicks(g, clicks[..|clicks| - 1]), ClickFilter(clicks[|clicks| - 1]), None)
  }

  /**
   * The cards of the grid: `projectCard.create(repo)` is called without languages,
   * so each card carries the single "No languages detected" badge.
   */
  function GridCards(shown: seq<Repo>): (r: seq<ProjectCard.Card>)
    ensures |r| == |shown|
    ensures forall i :: 0 <= i < |r| ==> r[i].link == shown[i].htmlUrl
    ensures forall i :: 0 <= i < |r| ==> r[i].badges == [ProjectCard.Badge(Config.DefaultLanguageIcon, ProjectCard.NoLanguages)]
  {
    if |shown| == 0 then [] else [ProjectCard.Create(shown[0], None)] + GridCards(shown[1..])
  }

  datatype Action = ClickFilter(filter: string) | LoadMore

  /** `handleFilterClick(filter)` and the Load More handler. */
  function Step(g: Gallery, a: Action, pageSize: Option<nat>): (r: Gallery)
    ensures r.projects == g.projects
    ensures a.ClickFilter? ==> r.activeFilter == a.filter
    ensures a.LoadMore? ==> r.activeFilter == g.activeFilter
    ensures a.LoadMore? && g.visibleCount.Num? && pageSize.Some? ==> r.visibleCount == Num(g.visibleCount.n + pageSize.value)
    ensures a.LoadMore? && (!g.visibleCount.Num? || pageSize.None?) ==> r.visibleCount == NaN
  {
    match a
    case ClickFilter(f) => if f == g.activeFilter then g else g.(activeFilter := f, visibleCount := PageCount(pageSize))
    case LoadMore => g.(visibleCount := AddPage(g.visibleCount, pageSize))
  }

  /** Clicking the filter that is already active changes nothing. */
  lemma ClickActiveIsNoOp(g: Gallery, pageSize: Option<nat>)
    ensures Step(g, ClickFilter(g.activeFilter), pageSize) == g
  {
  }

  /** Switching to another filter starts again at one page. */
  lemma SwitchResetsPaging(g: Gallery, f: string, pageSize: Option<nat>)
    requires f != g.activeFilter
    ensures Step(g, ClickFilter(f), pageSize).visibleCount == PageCount(pageSize)
  {
  }

  /**
   * The number of matches `slice` keeps only ever falls through a switch to another
   * filter, or through a Load More press that meets a non-number and makes `NaN`.
   */
  lemma ShrinksOnlyOnSwitch(g: Gallery, a: Action, pageSize: Option<nat>, len: nat)
    requires SliceEnd(Step(g, a, pageSize).visibleCount, len) < SliceEnd(g.visibleCount, len)
    ensures (a.ClickFilter? && a.filter != g.activeFilter) || (a.LoadMore? && (pageSize.None? || g.visibleCount.Undefined?))
  {
  }

  function LoadMoreTimes(g: Gallery, k: nat, pageSize: Option<nat>): Gallery
    decreases k
  {
    if k == 0 then g else LoadMoreTimes(Step(g, LoadMore, pageSize), k - 1, pageSize)
  }

  /**
   * `k` presses of Load More widen a numeric window by `k` pages and leave filter and
   * projects alone; with a non-number on either side, any press leaves `NaN`.
   */
  lemma {:induction false} LoadMoreTimesGrows(g: Gallery, k: nat, pageSize: Option<nat>)
    ensures g.visibleCount.Num? && pageSize.Some? ==>
      LoadMoreTimes(g, k, pageSize) == g.(visibleCount := Num(g.visibleCount.n + k * pageSize.value))
    ensures (!g.visibleCount.Num? || pageSize.None?) && k > 0 ==>
      LoadMoreTimes(g, k, pageSize) == g.(visibleCount := NaN)
    decreases k
  {
    if k > 0 {
      LoadMoreTimesGrows(Step(g, LoadMore, pageSize), k - 1, pageSize);
    }
  }

  /** With a positive page size, enough presses show every filtered project and remove the button. */
  lemma LoadMoreReachesEnd(g: Gallery, pageSize: nat)
    requires pageSize > 0 && Filtered(g) != [] && g.visibleCount.Num?
    ensures var r := Render(LoadMoreTimes(g, |Filtered(g)|, Some(pageSize)));
      r.Cards? && r.shown == Filtered(g) && !r.loadMore
  {
    var len := |Filtered(g)|;
    LoadMoreTimesGrows(g, len, Some(pageSize));
    var g' := LoadMoreTimes(g, len, Some(pageSize));
    assert len * pageSize >= len;
    assert g'.visibleCount == Num(g.visibleCount.n + len * pageSize);
    assert Filtered(g') == Filtered(g);
  }
}

=== FILE: readme_modal.dfy ===
/**
 * `readmeModal`: where a repository's README is requested from, how relative links
 * and images are rewritten against the README's own location, and the open flag.
 * URL resolution (`new URL(relative, base)`, section 5.2 of RFC 3986) is a
 * parameter: it yields the resolved URL, or `None` where the constructor throws.
 */
module ReadmeModal {
  import opened Wrappers
  import opened Strings

  /** `new URL(relative, base).href`, `None` when it throws. */
  type Resolver = (string, string) -> Option<string>

  // ----- request --------------------------------------------------------------

  /** The last two `/`-separated segments of the repository URL; `None` stands for `undefined`. */
  datatype Coordinates = Coordinates(owner: Option<string>, repo: string)

  function RepoCoordinates(repoUrl: string): (r: Coordinates)
    ensures '/' !in r.repo
    ensures r.owner.Some? ==> '/' !in r.owner.value
    ensures r.owner.None? <==> '/' !in repoUrl
  {
    var parts := Split(repoUrl, '/');
    SplitCount(repoUrl, '/');
    Coordinates(if |parts| >= 2 then Some(parts[|parts| - 2]) else None, parts[|parts| - 1])
  }

  lemma {:induction false} SplitCount(s: string, sep: char)
    ensures |Split(s, sep)| == 1 <==> sep !in s
  {
    if |s| > 0 {
      SplitCount(s[1..], sep);
      assert s == [s[0]] + s[1..];
    }
  }

  /** A URL `prefix/owner/repo` names exactly that owner and repository. */
  lemma CoordinatesOfRepoUrl(prefix: string, owner: string, repo: string)
    requires '/' !in owner && '/' !in repo
    ensures RepoCoordinates(prefix + "/" + owner + "/" + repo) == Coordinates(Some(owner), repo)
  {
    SplitLastSegment(prefix + "/" + owner, '/', repo);
    SplitLastSegment(prefix, '/', owner);
    assert prefix + "/" + owner + "/" + repo == (prefix + "/" + owner) + ['/'] + repo;
    assert prefix + "/" + owner == prefix + ['/'] + owner;
  }

  /** `String(x)` inside the template: `undefined` prints as the word. */
  function Show(x: Option<string>): string {
    x.GetOr("undefined")
  }

  /** The README endpoint requested for a repository URL. */
  function ApiUrl(repoUrl: string): (r: string)
    ensures StartsWith(r, "https://api.github.com/repos/")
    ensures var tail := "/" + RepoCoordinates(repoUrl).repo + "/readme"; |tail| <= |r| && r[|r| - |tail|..] == tail
  {
    var c := RepoCoordinates(repoUrl);
    var r := "https://api.github.com/repos/" + Show(c.owner) + "/" + c.repo + "/readme";
    assert r[..|"https://api.github.com/repos/"|] == "https://api.github.com/repos/";
    assert r == ("https://api.github.com/repos/" + Show(c.owner)) + ("/" + c.repo + "/readme");
    r
  }

  /** A repository page `https://github.com/owner/repo` asks for exactly that repository's README. */
  lemma ApiUrlOfRepoPage(owner: string, repo: string)
    requires '/' !in owner && '/' !in repo
    ensures ApiUrl("https://github.com/" + owner + "/" + repo) == "https://api.github.com/repos/" + owner + "/" + repo + "/readme"
  {
    assert "https://github.com/" + owner + "/" + repo == "https://github.com" + "/" + owner + "/" + repo;
    CoordinatesOfRepoUrl("https://github.com", owner, repo);
  }

  // ----- base prefixes ---------------------------------------------------------

  /** `url.substring(0, url.lastIndexOf('/') + 1)`: everything through the last `/`. */
  function DirPrefix(url: string): (r: string)
    ensures r <= url
    ensures r == "" <==> '/' !in url
    ensures r != "" ==> r[|r| - 1] == '/'
    ensures '/' !in url[|r|..]
  {
    url[..LastIndexOf(url, '/') + 1]
  }

  /** What follows the base is the last segment of the URL. */
  lemma {:induction false} DirPrefixAndLastSegment(url: string)
    ensures url == DirPrefix(url) + RepoCoordinates(url).repo
  {
    var d := DirPrefix(url);
    var rest := url[|d|..];
    assert url == d + rest;
    if d == "" {
      SplitNoSep(url, '/');
    } else {
      var head := d[..|d| - 1];
      assert d == head + ['/'];
      assert url == head + ['/'] + rest;
      SplitLastSegment(head, '/', rest);
    }
  }

  /** A URL made of a directory ending in `/` and a file name has that directory as its base. */
  lemma DirPrefixOf(dir: string, name: string)
    requires dir != "" && dir[|dir| - 1] == '/' && '/' !in name
    ensures DirPrefix(dir + name) == dir
  {
    var url := dir + name;
    var d := DirPrefix(url);
    assert url[|dir| - 1] == '/';
    assert forall i :: |dir| <= i < |url| ==> url[i] == name[i - |dir|] != '/';
    assert d == url[..|d|];
  }

  // ----- rewriting -------------------------------------------------------------

  /** `href.replace(/^\.\//, '')`: one leading `./` is dropped. */
  function StripDotSlash(href: string): (r: string)
    ensures StartsWith(href, "./") ==> r == href[2..]
    ensures !StartsWith(href, "./") ==> r == href
  {
    if StartsWith(href, "./") then href[2..] else href
  }

  /** The `<a>` the custom link renderer emits. */
  datatype Anchor = Anchor(href: string, newTab: bool)

  predicate LinkIsRewritten(href: string) {
    href != "" && !StartsWith(href, "http") && !StartsWith(href, "#") && !StartsWith(href, "mailto:")
  }

  /** `renderer.link`: relative links are resolved against the blob base; the target is skipped only for fragments. */
  function RewriteLink(href: string, blobBase: string, resolve: Resolver): (a: Anchor)
    ensures !LinkIsRewritten(href) ==> a.href == href
    ensures LinkIsRewritten(href) ==>
      a.href == resolve(StripDotSlash(href), blobBase).GetOr(href)
    ensures a.newTab <==> !(a.href != "" && StartsWith(a.href, "#"))
  {
    var link := if LinkIsRewritten(href) then resolve(StripDotSlash(href), blobBase).GetOr(href) else href;
    Anchor(link, !(link != "" && StartsWith(link, "#")))
  }

  /** Fragment links stay on the page: unchanged and without a new-tab target. */
  lemma FragmentLinksStay(href: string, blobBase: string, resolve: Resolver)
    requires StartsWith(href, "#")
    ensures RewriteLink(href, blobBase, resolve) == Anchor(href, false)
  {
  }

  /** Absolute and mail links keep their target and open in a new tab without opener or referrer. */
  lemma AbsoluteLinksOpenElsewhere(href: string, blobBase: string, resolve: Resolver)
    requires StartsWith(href, "http") || StartsWith(href, "mailto:")
    ensures RewriteLink(href, blobBase, resolve) == Anchor(href, true)
  {
    if StartsWith(href, "http") {
      assert href[0] == 'h';
    } else {
      assert href[0] == 'm';
    }
  }

  /**
   * With a resolver that appends plain relative paths to the base,
   * `./docs/x.md` against `https://github.com/o/r/blob/main/` becomes
   * `https://github.com/o/r/blob/main/docs/x.md`.
   */
  lemma RelativeLinkExample(resolve: Resolver)
    requires resolve("docs/x.md", "https://github.com/o/r/blob/main/") == Some("https://github.com/o/r/blob/main/docs/x.md")
    ensures RewriteLink("./docs/x.md", "https://github.com/o/r/blob/main/", resolve)
      == Anchor("https://github.com/o/r/blob/main/docs/x.md", true)
  {
    assert StripDotSlash("./docs/x.md") == "docs/x.md";
    FirstCharDiffers("./docs/x.md", "http");
    FirstCharDiffers("./docs/x.md", "#");
    FirstCharDiffers("./docs/x.md", "mailto:");
    FirstCharDiffers("https://github.com/o/r/blob/main/docs/x.md", "#");
  }

  predicate ImageIsRewritten(src: string) {
    src != "" && !StartsWith(src, "http") && !StartsWith(src, "data:")
  }

  /** `renderer.image`: relative sources are resolved against the raw base; a throwing resolution keeps the source. */
  function RewriteImage(src: string, rawBase: string, resolve: Resolver): (r: string)
    ensures !ImageIsRewritten(src) ==> r == src
    ensures ImageIsRewritten(src) && resolve(StripDotSlash(src), rawBase).None? ==> r == src
    ensures ImageIsRewritten(src) && resolve(StripDotSlash(src), rawBase).Some? ==> r == resolve(StripDotSlash(src), rawBase).value
  {
    if ImageIsRewritten(src) then resolve(StripDotSlash(src), rawBase).GetOr(src) else src
  }

  /** Absolute and inline (`data:`) images are left exactly as written. */
  lemma AbsoluteAndDataImagesKept(src: string, rawBase: string, resolve: Resolver)
    requires StartsWith(src, "http") || StartsWith(src, "data:")
    ensures RewriteImage(src, rawBase, resolve) == src
  {
    if StartsWith(src, "http") {
      assert src[0] == 'h';
    } else {
      assert src[0] == 'd';
    }
  }

  /**
   * For a README downloaded from `dir + "README.md"`, with a resolver that appends
   * plain relative paths, `./img/logo.png` becomes the raw file next to the README.
   */
  lemma RelativeImageNextToReadme(dir: string, resolve: Resolver)
    requires dir != "" && dir[|dir| - 1] == '/'
    requires resolve("img/logo.png", dir) == Some(dir + "img/logo.png")
    ensures RewriteImage("./img/logo.png", DirPrefix(dir + "README.md"), resolve) == dir + "img/logo.png"
  {
    DirPrefixOf(dir, "README.md");
    assert StripDotSlash("./img/logo.png") == "img/logo.png";
    FirstCharDiffers("./img/logo.png", "http");
    FirstCharDiffers("./img/logo.png", "data:");
  }

  // ----- modal state -----------------------------------------------------------

  /** The README API's JSON: content already decoded (`None` when `atob` rejects it), and its two URLs. */
  datatype Readme = Readme(content: Option<string>, htmlUrl: string, downloadUrl: string)

  datatype Response = Failed | NotOk(status: int) | Ok(readme: Readme)

  datatype Panel =
    | Blank
    | Loading
    | Rendered(markdown: string, blobBase: string, rawBase: string)
    | ErrorPanel(link: string)

  datatype Modal = Modal(isOpen: bool, panel: Panel)

  /** The constructor's state: closed, with nothing loaded. */
  function Init(): (m: Modal)
    ensures !m.isOpen && m.panel == Blank
  {
    Modal(false, Blank)
  }

  /** `open(repoUrl)` up to its first `await`: the flag is set and the spinner shown. */
  function Open(m: Modal): (r: Modal)
    ensures r.isOpen && r.panel == Loading
  {
    Modal(true, Loading)
  }

  /**
   * The rest of `open(repoUrl)` once the request has settled: the content is
   * replaced by the README or the error panel, and the open flag is not touched.
   */
  function Settle(m: Modal, repoUrl: string, response: Response): (r: Modal)
    ensures r.isOpen == m.isOpen
    ensures !response.Ok? ==> r.panel == ErrorPanel(repoUrl)
    ensures response.Ok? && response.readme.content.None? ==> r.panel == ErrorPanel(repoUrl)
    ensures response.Ok? && response.readme.content.Some? ==>
      r.panel == Rendered(response.readme.content.value, DirPrefix(response.readme.htmlUrl), DirPrefix(response.readme.downloadUrl))
  {
    match response
    case Ok(Readme(Some(markdown), htmlUrl, downloadUrl)) =>
      m.(panel := Rendered(markdown, DirPrefix(htmlUrl), DirPrefix(downloadUrl)))
    case _ => m.(panel := ErrorPanel(repoUrl))
  }

  /** `close()`: only the flag (and the overlay's class) changes. */
  function Close(m: Modal): (r: Modal)
    ensures !r.isOpen && r.panel == m.panel
  {
    m.(isOpen := false)
  }

  /** The document `keydown` listener: Escape closes an open modal and nothing else. */
  function HandleKeydown(m: Modal, key: string): (r: Modal)
    ensures key == "Escape" && m.isOpen ==> r == Close(m)
    ensures !(key == "Escape" && m.isOpen) ==> r == m
  {
    if key == "Escape" && m.isOpen then Close(m) else m
  }

  /** An uninterrupted open shows its result in the open modal, and Escape then closes it. */
  lemma OpenThenEscapeCloses(m: Modal, repoUrl: string, response: Response)
    ensures Settle(Open(m), repoUrl, response).isOpen
    ensures Settle(Open(m), repoUrl, response).panel != Loading
    ensures !HandleKeydown(Settle(Open(m), repoUrl, response), "Escape").isOpen
  {
  }

  /**
   * Escape while the README is still loading closes the modal for good: the late
   * response still fills in the content, but the modal stays closed.
   */
  lemma CloseWhileLoadingStaysClosed(m: Modal, repoUrl: string, response: Response)
    ensures var closed := HandleKeydown(Open(m), "Escape");
      && !closed.isOpen
      && !Settle(closed, repoUrl, response).isOpen
      && Settle(closed, repoUrl, response).panel == Settle(Open(m), repoUrl, response).panel
  {
  }
}

=== FILE: repos.dfy ===
/** The repository record shared by the GitHub API, the pinned-repos file and the configured featured list. */
module Repos {
  import opened Wrappers

  /** A parsed `updated_at`: absent, not a date (`new Date` gives NaN), or milliseconds since the epoch. */
  datatype When = Unset | Invalid | At(ms: int)

  datatype Repo = Repo(
    name: string,
    description: Option<string>,
    htmlUrl: string,
    language: Option<string>,
    topics: Option<seq<string>>,
    stars: Option<int>,
    updatedAt: When,
    fork: bool
  )

  /** JavaScript truthiness of an optional string: present and non-empty. */
  predicate Truthy(s: Option<string>) {
    s.Some? && s.value != ""
  }
}

=== FILE: seqs.dfy ===
/** `Array.prototype.filter` and `slice(0, n)` over sequences. */
module Seqs {

  function Min(a: int, b: int): int { if a <= b then a else b }

  /** The elements of `s` that `keep` accepts, in their original order. */
  function Filter<T(!new)>(s: seq<T>, keep: T -> bool): (r: seq<T>)
    ensures |r| <= |s|
    ensures forall x :: x in r <==> x in s && keep(x)
  {
    if |s| == 0 then []
    else (if keep(s[0]) then [s[0]] else []) + Filter(s[1..], keep)
  }

  /** Filtering a concatenation filters each part in place: the order of `s` is kept. */
  lemma {:induction false} FilterAppend<T(!new)>(a: seq<T>, b: seq<T>, keep: T -> bool)
    ensures Filter(a + b, keep) == Filter(a, keep) + Filter(b, keep)
  {
    if |a| == 0 {
      assert a + b == b;
    } else {
      assert (a + b)[1..] == a[1..] + b;
      FilterAppend(a[1..], b, keep);
    }
  }

  /** `s.slice(0, n)` for a non-negative `n`. */
  function Take<T>(s: seq<T>, n: nat): (r: seq<T>)
    ensures |r| == Min(n, |s|)
    ensures r <= s
  {
    if n >= |s| then s else s[..n]
  }
}

=== FILE: streaming_text.dfy ===
/** `streamingText.type()`: a typewriter that types a text, deletes it, and moves on to the next. */
module StreamingText {
  import opened Strings
  import Config

  datatype Typer = Typer(textIndex: int, charIndex: int, deleting: bool)

  /** One call of `type()`: the state it leaves, the text it shows, and the delay it schedules. */
  datatype Tick = Tick(next: Typer, shown: string, delay: int)

  /** The constructor's state: the first text, nothing typed, typing. */
  function Init(): (s: Typer)
    ensures forall texts: seq<string> :: NonEmptyTexts(texts) ==> Inv(texts, s)
    ensures s.charIndex == 0 && !s.deleting
  {
    Typer(0, 0, false)
  }

  /** `type()` over `texts` (the configured list in the site). */
  function Type(texts: seq<string>, s: Typer): (t: Tick)
    requires 0 <= s.textIndex < |texts|
    ensures var text := texts[s.textIndex];
      && t.shown == Prefix(text, t.next.charIndex)
      && 0 <= t.next.textIndex < |texts|
    ensures s.deleting ==> t.next.charIndex == s.charIndex - 1
    ensures !s.deleting ==> t.next.charIndex == s.charIndex + 1
    ensures s.deleting && s.charIndex == 1 ==>
      t.next == Typer((s.textIndex + 1) % |texts|, 0, false) && t.delay == Config.PauseBeforeType
    ensures s.deleting && s.charIndex != 1 ==> t.next.deleting && t.next.textIndex == s.textIndex && t.delay == Config.DeletingSpeed
    ensures !s.deleting && s.charIndex + 1 == |texts[s.textIndex]| ==>
      t.next.deleting && t.next.textIndex == s.textIndex && t.delay == Config.PauseBeforeDelete
    ensures !s.deleting && s.charIndex + 1 != |texts[s.textIndex]| ==>
      !t.next.deleting && t.next.textIndex == s.textIndex && t.delay == Config.TypingSpeed
  {
    var text := texts[s.textIndex];
    if s.deleting then
      var c := s.charIndex - 1;
      if c == 0 then Tick(Typer((s.textIndex + 1) % |texts|, 0, false), Prefix(text, c), Config.PauseBeforeType)
      else Tick(Typer(s.textIndex, c, true), Prefix(text, c), Config.DeletingSpeed)
    else
      var c := s.charIndex + 1;
      if c == |text| then Tick(Typer(s.textIndex, c, true), Prefix(text, c), Config.PauseBeforeDelete)
      else Tick(Typer(s.textIndex, c, false), Prefix(text, c), Config.TypingSpeed)
  }

  predicate NonEmptyTexts(texts: seq<string>) {
    |texts| > 0 && forall i :: 0 <= i < |texts| ==> |texts[i]| > 0
  }

  /** Reachable states: a typing index below the text's length, a deleting index in 1..length. */
  predicate Inv(texts: seq<string>, s: Typer) {
    && 0 <= s.textIndex < |texts|
    && (!s.deleting ==> 0 <= s.charIndex < |texts[s.textIndex]|)
    && (s.deleting ==> 1 <= s.charIndex <= |texts[s.textIndex]|)
  }

  /** With non-empty texts every step keeps the character index within the current text. */
  lemma TypePreservesInv(texts: seq<string>, s: Typer)
    requires NonEmptyTexts(texts) && Inv(texts, s)
    ensures Inv(texts, Type(texts, s).next)
    ensures |Type(texts, s).shown| == Type(texts, s).next.charIndex
  {
  }

  function Run(texts: seq<string>, s: Typer, k: nat): (r: Typer)
    requires NonEmptyTexts(texts) && Inv(texts, s)
    ensures Inv(texts, r)
    decreases k
  {
    if k == 0 then s else
      TypePreservesInv(texts, s);
      Run(texts, Type(texts, s).next, k - 1)
  }

  lemma {:induction false} TypingPhase(texts: seq<string>, t: int, c: int)
    requires NonEmptyTexts(texts) && Inv(texts, Typer(t, c, false))
    ensures Run(texts, Typer(t, c, false), |texts[t]| - c) == Typer(t, |texts[t]|, true)
    decreases |texts[t]| - c
  {
    if c + 1 < |texts[t]| {
      TypingPhase(texts, t, c + 1);
    }
  }

  lemma {:induction false} DeletingPhase(texts: seq<string>, t: int, c: int)
    requires NonEmptyTexts(texts) && Inv(texts, Typer(t, c, true))
    ensures Run(texts, Typer(t, c, true), c) == Typer((t + 1) % |texts|, 0, false)
    decreases c
  {
    if c > 1 {
      DeletingPhase(texts, t, c - 1);
    }
  }

  lemma {:induction false} RunAppend(texts: seq<string>, s: Typer, a: nat, b: nat)
    requires NonEmptyTexts(texts) && Inv(texts, s)
    ensures Run(texts, s, a + b) == Run(texts, Run(texts, s, a), b)
    decreases a
  {
    if a > 0 {
      TypePreservesInv(texts, s);
      RunAppend(texts, Type(texts, s).next, a - 1, b);
    }
  }

  /** Typing a text of length L and deleting it takes 2L steps and leaves the writer at the start of the next text. */
  lemma FullCycle(texts: seq<string>, t: int)
    requires NonEmptyTexts(texts) && 0 <= t < |texts|
    ensures Run(texts, Typer(t, 0, false), 2 * |texts[t]|) == Typer((t + 1) % |texts|, 0, false)
  {
    var l := |texts[t]|;
    RunAppend(texts, Typer(t, 0, false), l, l);
    TypingPhase(texts, t, 0);
    DeletingPhase(texts, t, l);
  }

  /** The configured texts satisfy the hypothesis of the lemmas above. */
  lemma ConfiguredTextsNonEmpty()
    ensures NonEmptyTexts(Config.StreamingTexts)
  {
  }
}

=== FILE: string_helpers.dfy ===
/** `truncateText` and `getLanguageIcon`. */
module StringHelpers {
  import opened Wrappers
  import opened Strings
  import Config

  const NoDescription := "No description available"
  const Ellipsis := "..."

  /**
   * `truncateText(text, maxLength)`: absent or empty text becomes the placeholder,
   * text that fits is kept, longer text is cut to `maxLength`, trimmed and marked.
   */
  function TruncateText(text: Option<string>, maxLength: nat): (r: string)
    ensures text.None? || text.value == "" ==> r == NoDescription
    ensures text.Some? && 0 < |text.value| <= maxLength ==> r == text.value
    ensures text.Some? && |text.value| > maxLength ==>
      && 3 <= |r| <= maxLength + 3
      && r[|r| - 3..] == Ellipsis
      && r[..|r| - 3] == Trim(text.value[..maxLength])
  {
    if text.None? || text.value == "" then NoDescription
    else if |text.value| <= maxLength then text.value
    else Trim(Prefix(text.value, maxLength)) + Ellipsis
  }

  /** The default length used when the caller passes no `maxLength`. */
  function TruncateDefault(text: Option<string>): (r: string)
    ensures r == TruncateText(text, 120)
  {
    TruncateText(text, Config.ProjectDescriptionMaxLength)
  }

  /** `getLanguageIcon(language)`: the configured class, else the default code icon. */
  function LanguageIcon(language: string): (r: string)
    ensures language in Config.LanguageIcons ==> r == Config.LanguageIcons[language]
    ensures language !in Config.LanguageIcons ==> r == Config.DefaultLanguageIcon
  {
    if language in Config.LanguageIcons then Config.LanguageIcons[language] else Config.DefaultLanguageIcon
  }

  /** Every icon class handed out is one the configuration names. */
  lemma LanguageIconRange(language: string)
    ensures LanguageIcon(language) in Config.LanguageIcons.Values
  {
    if language !in Config.LanguageIcons {
      assert Config.LanguageIcons["Go"] == Config.DefaultLanguageIcon;
    }
  }
}

=== FILE: strings.dfy ===
/**
 * The JavaScript string operations the site relies on, over `seq<char>`:
 * `startsWith`, `substring(0, n)`, `trim`, `toLowerCase`, `split`,
 * `lastIndexOf` and the default ordering used by `Array.prototype.sort`.
 */
module Strings {

  predicate StartsWith(s: string, p: string) {
    |p| <= |s| && s[..|p|] == p
  }

  /** Strings whose first characters differ do not start with one another. */
  lemma FirstCharDiffers(s: string, p: string)
    requires |s| > 0 && |p| > 0 && s[0] != p[0]
    ensures !StartsWith(s, p)
  {
    if |p| <= |s| {
      assert s[..|p|][0] == s[0];
    }
  }

  /** `s.substring(0, n)`: the bound is clamped into [0, |s|]. */
  function Prefix(s: string, n: int): (r: string)
    ensures |r| == if n <= 0 then 0 else if n >= |s| then |s| else n
    ensures r <= s
  {
    if n <= 0 then "" else if n >= |s| then s else s[..n]
  }

  /** The characters `String.prototype.trim` strips: WhiteSpace and LineTerminator of ECMA-262. */
  predicate IsSpace(c: char) {
    || c == '\t' || c == '\n' || c == '\U{000B}' || c == '\U{000C}' || c == '\r' || c == ' '
    || c == '\U{00A0}' || c == '\U{1680}' || ('\U{2000}' <= c <= '\U{200A}')
    || c == '\U{2028}' || c == '\U{2029}' || c == '\U{202F}' || c == '\U{205F}'
    || c == '\U{3000}' || c == '\U{FEFF}'
  }

  function TrimStart(s: string): (r: string)
    ensures |r| <= |s| && r == s[|s| - |r|..]
    ensures forall i :: 0 <= i < |s| - |r| ==> IsSpace(s[i])
    ensures |r| > 0 ==> !IsSpace(r[0])
  {
    if |s| > 0 && IsSpace(s[0]) then TrimStart(s[1..]) else s
  }

  function TrimEnd(s: string): (r: string)
    ensures |r| <= |s| && r == s[..|r|]
    ensures forall i :: |r| <= i < |s| ==> IsSpace(s[i])
    ensures |r| > 0 ==> !IsSpace(r[|r| - 1])
  {
    if |s| > 0 && IsSpace(s[|s| - 1]) then TrimEnd(s[..|s| - 1]) else s
  }

  /** `s.trim()`. */
  function Trim(s: string): (r: string)
    ensures |r| <= |s|
    ensures |r| > 0 ==> !IsSpace(r[0]) && !IsSpace(r[|r| - 1])
    ensures (|s| == 0 || (!IsSpace(s[0]) && !IsSpace(s[|s| - 1]))) ==> r == s
  {
    TrimEnd(TrimStart(s))
  }

  /** `toLowerCase` on one character; only the ASCII letters are folded here. */
  function LowerChar(c: char): char {
    if 'A' <= c <= 'Z' then (c as int + 32) as char else c
  }

  function ToLower(s: string): (r: string)
    ensures |r| == |s|
    ensures forall i :: 0 <= i < |s| ==> r[i] == LowerChar(s[i])
  {
    if |s| == 0 then "" else [LowerChar(s[0])] + ToLower(s[1..])
  }

  /** `s.lastIndexOf(c)`, -1 when `c` does not occur. */
  function LastIndexOf(s: string, c: char): (r: int)
    ensures -1 <= r < |s|
    ensures r == -1 <==> c !in s
    ensures r >= 0 ==> s[r] == c && c !in s[r + 1..]
  {
    if |s| == 0 then -1
    else if s[|s| - 1] == c then |s| - 1
    else LastIndexOf(s[..|s| - 1], c)
  }

  /** `s.split(sep)` for a one-character separator. */
  function Split(s: string, sep: char): (parts: seq<string>)
    ensures |parts| >= 1
    ensures forall i :: 0 <= i < |parts| ==> sep !in parts[i]
  {
    if |s| == 0 then [""]
    else
      var rest := Split(s[1..], sep);
      if s[0] == sep then [""] + rest else [[s[0]] + rest[0]] + rest[1..]
  }

  /** `parts.join(sep)`; with a one-character separator it undoes `Split`. */
  function Join(parts: seq<string>, sep: string): string
    requires |parts| >= 1
  {
    if |parts| == 1 then parts[0] else parts[0] + sep + Join(parts[1..], sep)
  }

  lemma {:induction false} JoinSplit(s: string, sep: char)
    ensures Join(Split(s, sep), [sep]) == s
  {
    if |s| > 0 {
      var rest := Split(s[1..], sep);
      JoinSplit(s[1..], sep);
      if s[0] == sep {
        assert Split(s, sep) == [""] + rest;
        assert Join([""] + rest, [sep]) == "" + [sep] + Join(rest, [sep]) by {
          assert ([""] + rest)[1..] == rest;
        }
        assert s == [s[0]] + s[1..];
      } else {
        var parts := [[s[0]] + rest[0]] + rest[1..];
        if |rest| == 1 {
          assert parts == [[s[0]] + rest[0]];
        } else {
          assert parts[1..] == rest[1..];
          assert Join(rest, [sep]) == rest[0] + [sep] + Join(rest[1..], [sep]);
        }
        assert s == [s[0]] + s[1..];
      }
    }
  }

  /** Splitting `a + sep + b`, where `b` holds no separator, ends in the segment `b`. */
  lemma {:induction false} SplitLastSegment(a: string, sep: char, b: string)
    requires sep !in b
    ensures Split(a + [sep] + b, sep) == Split(a, sep) + [b]
  {
    if |a| == 0 {
      SplitNoSep(b, sep);
      assert [sep] + b == a + [sep] + b;
      assert ([sep] + b)[1..] == b;
    } else {
      SplitLastSegment(a[1..], sep, b);
      assert (a + [sep] + b)[1..] == a[1..] + [sep] + b;
      assert (a + [sep] + b)[0] == a[0];
    }
  }

  lemma {:induction false} SplitNoSep(s: string, sep: char)
    requires sep !in s
    ensures Split(s, sep) == [s]
  {
    if |s| > 0 {
      assert sep !in s[1..] by {
        forall i | 0 <= i < |s[1..]| ensures s[1..][i] != sep {
          assert s[1..][i] == s[i + 1];
        }
      }
      SplitNoSep(s[1..], sep);
      assert s == [s[0]] + s[1..];
    }
  }

  /** The order `Array.prototype.sort` uses by default: lexicographic by character. */
  predicate Less(a: string, b: string) {
    if |a| == 0 then |b| > 0
    else if |b| == 0 then false
    else if a[0] != b[0] then a[0] < b[0]
    else Less(a[1..], b[1..])
  }

  lemma LessIrreflexive(a: string)
    ensures !Less(a, a)
  {
  }

  lemma LessTransitive(a: string, b: string, c: string)
    requires Less(a, b) && Less(b, c)
    ensures Less(a, c)
  {
    if |a| > 0 && |b| > 0 && |c| > 0 && a[0] == b[0] && b[0] == c[0] {
      LessTransitive(a[1..], b[1..], c[1..]);
    }
  }

  lemma LessTotal(a: string, b: string)
    requires a != b
    ensures Less(a, b) || Less(b, a)
  {
    if |a| > 0 && |b| > 0 && a[0] == b[0] {
      assert a == [a[0]] + a[1..] && b == [b[0]] + b[1..];
      LessTotal(a[1..], b[1..]);
    }
  }

  /** Strictly ascending, hence without duplicates. */
  predicate StrictlySorted(s: seq<string>) {
    forall i, j :: 0 <= i < j < |s| ==> Less(s[i], s[j])
  }
}

=== FILE: type_effect.dfy ===
/** The landing page's `typeEffect()`: the rotating headline typewriter. */
module TypeEffect {
  import opened Strings

  const Phrases: seq<string> := [
    "Full Stack Software Engineer",
    "AI Enthusiast",
    "UX/UI Creator",
    "Gamer",
    "Car Enthusiast"
  ]
  const TypingDelay := 100
  const DeletingDelay := 40
  const FullPause := 1500

  datatype Typer = Typer(phraseIndex: int, charIndex: nat, deleting: bool)

  /** One call: the text shown (before the update), the state left, and the delay until the next call. */
  datatype Tick = Tick(shown: string, next: Typer, delay: int)

  /** The first call: the first phrase, nothing typed, typing. */
  function Init(): (s: Typer)
    ensures Inv(s) && s.charIndex == 0 && !s.deleting
  {
    Typer(0, 0, false)
  }

  /**
   * `typeEffect()`. The full-text pause is the 1500 ms timer whose callback sets
   * `isDeleting` and calls the function again; it is folded into one step here.
   */
  function Step(s: Typer): (t: Tick)
    requires 0 <= s.phraseIndex < |Phrases|
    ensures t.shown == Prefix(Phrases[s.phraseIndex], s.charIndex)
    ensures 0 <= t.next.phraseIndex < |Phrases|
    ensures !s.deleting && s.charIndex < |Phrases[s.phraseIndex]| ==> t == Tick(t.shown, s.(charIndex := s.charIndex + 1), TypingDelay)
    ensures s.deleting && s.charIndex > 0 ==> t == Tick(t.shown, s.(charIndex := s.charIndex - 1), DeletingDelay)
    ensures !s.deleting && s.charIndex >= |Phrases[s.phraseIndex]| ==> t == Tick(t.shown, s.(deleting := true), FullPause)
    ensures s.deleting && s.charIndex == 0 ==>
      t == Tick(t.shown, Typer((s.phraseIndex + 1) % 5, 0, false), TypingDelay)
  {
    var phrase := Phrases[s.phraseIndex];
    var shown := Prefix(phrase, s.charIndex);
    if !s.deleting && s.charIndex < |phrase| then Tick(shown, s.(charIndex := s.charIndex + 1), TypingDelay)
    else if s.deleting && s.charIndex > 0 then Tick(shown, s.(charIndex := s.charIndex - 1), DeletingDelay)
    else if !s.deleting then Tick(shown, s.(deleting := true), FullPause)
    else Tick(shown, Typer((s.phraseIndex + 1) % |Phrases|, s.charIndex, false), TypingDelay)  // `isDeleting` is false again
  }

  predicate Inv(s: Typer) {
    0 <= s.phraseIndex < |Phrases| && s.charIndex <= |Phrases[s.phraseIndex]|
  }

  /** The character index never leaves [0, length of the current phrase]. */
  lemma StepPreservesInv(s: Typer)
    requires Inv(s)
    ensures Inv(Step(s).next)
    ensures Step(s).shown == Phrases[s.phraseIndex][..s.charIndex]
  {
  }

  /** The state one call leaves behind. */
  function Next(s: Typer): (r: Typer)
    requires Inv(s)
    ensures Inv(r)
  {
    StepPreservesInv(s);
    Step(s).next
  }

  function Run(s: Typer, k: nat): (r: Typer)
    requires Inv(s)
    ensures Inv(r)
    decreases k
  {
    if k == 0 then s else Run(Next(s), k - 1)
  }

  lemma {:induction false} RunAppend(s: Typer, a: nat, b: nat)
    requires Inv(s)
    ensures Run(s, a + b) == Run(Run(s, a), b)
    decreases a
  {
    if a > 0 {
      RunAppend(Next(s), a - 1, b);
    }
  }

  lemma {:induction false} Typing(p: int, c: nat)
    requires Inv(Typer(p, c, false))
    ensures Run(Typer(p, c, false), |Phrases[p]| - c) == Typer(p, |Phrases[p]|, false)
    decreases |Phrases[p]| - c
  {
    if c < |Phrases[p]| {
      Typing(p, c + 1);
    }
  }

  lemma {:induction false} Deleting(p: int, c: nat)
    requires Inv(Typer(p, c, true))
    ensures Run(Typer(p, c, true), c) == Typer(p, 0, true)
    decreases c
  {
    if c > 0 {
      Deleting(p, c - 1);
    }
  }

  /**
   * A phrase of length L takes L typing steps, the pause, L deleting steps and the
   * switch: 2L + 2 steps lead to the start of the next phrase, cyclically.
   */
  lemma FullCycle(p: int)
    requires 0 <= p < |Phrases|
    ensures Run(Typer(p, 0, false), 2 * |Phrases[p]| + 2) == Typer((p + 1) % 5, 0, false)
  {
    var l := |Phrases[p]|;
    var s0 := Typer(p, 0, false);
    RunAppend(s0, l, l + 2);
    Typing(p, 0);
    var s1 := Typer(p, l, false);
    RunAppend(s1, 1, l + 1);
    assert Run(s1, 1) == Typer(p, l, true);
    RunAppend(Typer(p, l, true), l, 1);
    Deleting(p, l);
    assert Run(Typer(p, 0, true), 1) == Typer((p + 1) % 5, 0, false);
  }
}

=== FILE: wrappers.dfy ===
/** Optional values: JavaScript's `undefined`/`null` next to a present value. */
module Wrappers {

  datatype Option<+T> = None | Some(value: T) {

    /** The value, or `default` when absent (JavaScript's `x || default` for truthy x). */
    function GetOr(default: T): T {
      match this
      case Some(v) => v
      case None => default
    }
  }
}
